=== FILE: README.md ===
# CJP-Linter language server: a Dafny model

This project models the language-server core of CJP-Linter
(`server/src/server.ts`). The core has five parts:

- **Capability negotiation.** `onInitialize` derives three flags from the client's capabilities and answers the Language Server Protocol `initialize` request.
- **Settings.** `ExampleSettings`, the defaults and the global fallback, plus the per-document cache of settings Thenables: `getDocumentSettings`, and the configuration-change and close handlers.
- **Pattern list.** The list is seeded with `/\b[A-Z]{2,}\b/g`. `isExistPattern`/`addPattern` extend it.
- **Validation pass.** `validateTextDocument` runs every pattern's `exec` loop over the text. It turns matches into Warning diagnostics until the running count reaches `maxNumberOfProblems`, then publishes them as one replacement set.
- **Completion.** `onCompletion` and `onCompletionResolve`.

The server is one immutable record (`Server.ServerState`) with pure transitions. Everything the program gets from outside is a parameter:

- The regular-expression engine is `RegExps.Engine`: the leftmost match at or after an index.
- `TextDocument.positionAt` is `Protocol.PositionAt`.
- The client's answers to configuration requests form a function from request number to an answer: rejected, `null`, or a settings object.

A settings Thenable is a `Settings.SettingsHandle`. It is either a value resolved at once or the configuration request with a given sequence number. The cache counts the requests it issues, so memoisation reads as "no new request on a cache hit".

`exec` follows RegExpBuiltinExec, section 22.2.7.2 of ECMA-262 (2023):

- A global or sticky expression starts at `lastIndex`.
- On failure it resets `lastIndex` to 0. A start past the end counts as a failure.
- On success it moves `lastIndex` to the end of the match.
- Any other expression leaves `lastIndex` alone.

The loop condition `(m = pattern.exec(text)) && problems < max` runs `exec` before the cap test. So once the cap is reached, each remaining pattern is still `exec`uted once. A global pattern whose match the cap dropped keeps the `lastIndex` that match left. The pattern list is shared by all passes, so that `lastIndex` carries over to the next pass, on any document. `Scenario.LeftoverLastIndexHidesMatch` shows a document whose only match is hidden this way. The model keeps this behaviour as the program has it.

The validation pass is a recursive fold. `Validation.ScanPattern` is the inner `while` and `Validation.ScanPatterns` the outer `for`. Both are proved against two independent references. For `ScanPattern` the contract says so. For `ScanPatterns` the lemmas `Validation.PassHitsFollowReference` and `Validation.PassEndsFollowReference` do:

- `Validation.Expected` is the reference order: each pattern's successive `exec` matches, in list order. The pass reports exactly the first `max` of that order.
- `Validation.ExpectedEnds` says how each pattern ends. It reports the successive matches that the budget left by the patterns before it allows. It is then `exec`uted once more and keeps that call's state and match.

When the awaited settings are `null`, the loop condition throws at the first successful `exec`. That `exec` has already moved the pattern. `Validation.NullSettingsPass` models this case, and `Validation.NullPassThrowsOnMatch` and `Validation.NullPassExecsUpToMatch` state what it does.

## Model

| member | source | states |
|---|---|---|
| `RegExps.Exec` | server/src/server.ts:181 | One `exec` call. Its result is the engine's answer from the start index (`lastIndex` when global or sticky, else 0); a start past the end of the text finds nothing. Source and flags never change. A global or sticky pattern's `lastIndex` becomes the end of the match, or 0 when there is none. Other patterns are untouched. With a sound engine the match is a real occurrence at or after the start index. |
| `RegExps.SuccessivePrefix` | server/src/server.ts:181 | Fewer successive `exec` calls see a prefix of what more calls see. |
| `RegExps.SuccessiveInOrder` | server/src/server.ts:180-213 | With a sound engine, the reported matches of one global or sticky pattern are real occurrences in text order. The first starts at or after the initial `lastIndex`, and none overlaps the previous one. |
| `RegExps.NonGlobalRepeats` | server/src/server.ts:181 | A pattern without the global or sticky flag returns the same match on every `exec`. The loop then repeats it until the cap. |
| `Patterns.IsExistPattern` | server/src/server.ts:105-110 | As written: true exactly when one of the list's for-in index keys "0", "1", … equals the pattern's string form. |
| `Patterns.AddPattern` | server/src/server.ts:112-115 | As written: leaves the list unchanged when `isExistPattern` holds, and otherwise appends the pattern at the end. |
| `Patterns.IsExistPatternNeverHolds` | server/src/server.ts:105-110 | No index key (all digits) ever equals a string form (which starts with '/'), so the check never fires. |
| `Patterns.AddPatternAlwaysAppends` | server/src/server.ts:112-115 | `addPattern` always grows the list by exactly one at the end and keeps every existing entry in place. |
| `Patterns.AddPatternDuplicatesDefault` | server/src/server.ts:97-115 | Adding the seed pattern to the seed list yields two entries with the same string form. |
| `Patterns.HasPattern` | server/src/server.ts:105-110 | Corrected check: true exactly when some element has the pattern's string form. |
| `Patterns.Register` | server/src/server.ts:112-115 | Corrected `addPattern`. A known string form leaves the list alone; a new one is appended. The pattern is present afterwards, and a list without duplicates stays without them. |
| `Patterns.RegisterIdempotent` | server/src/server.ts:112-115 | Corrected registration: registering a pattern twice equals registering it once. |
| `Capabilities.OnInitialize` | server/src/server.ts:38-71 | Each flag holds exactly when the client advertises the matching (possibly absent) capability. The reply always offers incremental sync and completion with resolve, and announces workspace folders exactly when the client supports them. |
| `Capabilities.ResultDependsOnlyOnWorkspaceFolders` | server/src/server.ts:55-71 | Two clients that agree on workspace-folder support get the same `initialize` result, whatever their other capabilities. |
| `Settings.GetDocumentSettings` | server/src/server.ts:136-149 | Without configuration capability: the global settings, cache untouched. With it: a cached entry is returned as is. On a miss, a new request numbered by the counter is issued and stored under the resource. Other entries never change. A well-formed cache stays well formed. |
| `Settings.OnDidChangeConfiguration` | server/src/server.ts:121-130 | With the capability: the cache is emptied and the global settings stay. Without it: the global settings become the payload's settings, or max 1000 when the payload is falsy, and the cache stays. |
| `Settings.OnDidClose` | server/src/server.ts:152-154 | Removes only the closed document's entry. The request counter and every other entry are unchanged. |
| `Settings.GetAllDocumentSettings` | server/src/server.ts:132-148 | `getDocumentSettings` for several resources in order. Without the capability every handle is the global settings and the cache is untouched. Existing entries are kept, only looked-up resources gain entries, and the counter never goes down. |
| `Settings.LookupOfEach` | server/src/server.ts:140-148 | With the capability, every looked-up resource ends up cached with the handle its lookup returned. A resource cached before keeps its handle. Any other gets a request for itself, numbered at or above the counter before the first lookup and below the counter after the last. |
| `Settings.DistinctResourcesGetDistinctTickets` | server/src/server.ts:140-148 | With the capability, two different resources that were not cached get requests with different numbers. |
| `Settings.Settle` | server/src/server.ts:136-149 | Awaiting a handle: the global settings, resolved at once, come back as they are. A configuration request yields the client's answer to that request number: a rejection, `null`, or settings. |
| `Settings.WithoutCapabilitySettlesToGlobal` | server/src/server.ts:137-139 | Without the configuration capability a lookup settles to the global settings, whatever the client would answer. |
| `Settings.WithCapabilitySettlesToAnswer` | server/src/server.ts:140-148 | With the capability a lookup settles to the client's answer to the cached request on a hit, and to a new request's answer on a miss. |
| `Settings.SecondLookupHits` | server/src/server.ts:140-148 | With the capability, a second lookup of the same resource returns the first handle and issues no request. |
| `Settings.LookupAfterCloseIsFresh` | server/src/server.ts:136-154 | After a close, a lookup of that document issues a new request whose number no previously cached handle carries. |
| `Settings.LookupAfterChangeIsFresh` | server/src/server.ts:121-149 | After a configuration change with the capability, every lookup issues a fresh request. |
| `Validation.ScanPattern` | server/src/server.ts:181-213 | The inner loop reports exactly the first `max - problems` successive matches. It calls `exec` once more than it reports. The pattern is left in the state of that last call, and the match that call returned is the one dropped. A match is dropped only once the cap is reached; otherwise a global pattern ends at `lastIndex` 0. |
| `Validation.ScanPatterns` | server/src/server.ts:180-214 | The outer loop: each pattern's loop starts from the count the patterns before it left. The count grows by exactly the number of hits, which never exceed what the cap allows. There is one end per pattern. |
| `Validation.PassHitsFollowReference` | server/src/server.ts:180-214 | The outer loop reports exactly the first `max - problems` hits of the reference order: patterns in list order, each in successive `exec` order. |
| `Validation.PassEndsFollowReference` | server/src/server.ts:180-214 | Each pattern ends as `ExpectedEnds` says. It reports what the budget left by the patterns before it allows, is `exec`uted once more, and keeps that call's state and match. |
| `Validation.PassLeavesPatterns` | server/src/server.ts:180-181 | Every pattern keeps its form, and a non-global pattern is untouched. A global one ends at the end of its dropped match, or at 0. |
| `Validation.DropMeansCapReached` | server/src/server.ts:181 | A pattern's match is dropped only when the running count has reached the cap. |
| `Validation.DroppedIsGenuine` | server/src/server.ts:181 | With a sound engine every dropped match is a real occurrence in the text. |
| `Validation.MakeDiagnostic` | server/src/server.ts:184-210 | Severity Warning and source "ex". The range runs from `positionAt(m.index)` to `positionAt(m.index + m[0].length)`. The message names `m[0]`, then the pattern. The two related entries ("Spelling matters", "Particularly for names") are present, with the document uri and the same range, exactly when the client supports related information. |
| `Validation.ValidationPass` | server/src/server.ts:177-214 | At most `maxNumberOfProblems` diagnostics, none when it is not positive. They are exactly the first that many matches of the reference order, each converted by `MakeDiagnostic`. Every pattern ends as `ExpectedEnds` says for that cap, and the new pattern list holds those end states. So a pattern stopped by the cap keeps the `lastIndex` its dropped match left. |
| `Validation.ExhaustedBudgetStillExecs` | server/src/server.ts:180-181 | Once the cap is reached, every remaining pattern is still `exec`uted once: it reports nothing and keeps that call's state and match. |
| `Validation.NullSettingsPass` | server/src/server.ts:167-181 | With `null` settings the pass keeps one entry per pattern; what happens to each is stated by the two lemmas below. |
| `Validation.NullPassThrowsOnMatch` | server/src/server.ts:181 | The `null` pass throws exactly when some pattern's `exec` matches. |
| `Validation.NullPassExecsUpToMatch` | server/src/server.ts:180-181 | The patterns are `exec`uted once each, in list order, up to and including the first that matches. Each keeps the state its `exec` left, and later patterns are untouched. |
| `Validation.NullPassKeepsForms` | server/src/server.ts:180-181 | The `null` pass changes only `lastIndex` values. |
| `Validation.QuietNullPassIsEmptyPass` | server/src/server.ts:180-218 | A `null` pass that does not throw leaves the patterns exactly as a pass with a cap of 0 does, and that pass publishes no diagnostics. |
| `Validation.ExpectedPrefix` | server/src/server.ts:180-181 | The first k hits of the reference order do not depend on how far past k each pattern is followed. |
| `Validation.UncappedPassResetsLastIndex` | server/src/server.ts:181 | A pass that stays below the cap ended because every pattern ran out, so every global pattern is back at `lastIndex` 0. |
| `Validation.CappedPatternKeepsLastIndex` | server/src/server.ts:181 | A global pattern whose match the cap dropped is left at that match's end: within the text when the engine is sound, and non-zero for a non-empty match. This happens only when the pass reported the full cap. |
| `Validation.PassDiagnosticsShape` | server/src/server.ts:184-212 | Every published diagnostic is a Warning from "ex". It has the two related entries exactly when supported, and a range whose start is not after its end when `positionAt` is monotone. |
| `Completion.OnCompletion` | server/src/server.ts:227-248 | Exactly two items, TypeScript (data 1) then JavaScript (data 2), both of kind Text. |
| `Completion.OnCompletionResolve` | server/src/server.ts:251-262 | Data 1 and data 2 get their detail and documentation texts. Any other item comes back unchanged. Label, kind and data never change. |
| `Completion.CompletionIgnoresPosition` | server/src/server.ts:227-235 | The offered list does not depend on the request. |
| `Completion.ResolveIdempotent` | server/src/server.ts:251-262 | Resolving an item twice equals resolving it once. |
| `Completion.OfferedItemsResolve` | server/src/server.ts:235-259 | Every offered item resolves to a detail and documentation that name its own label. |
| `Server.InitialSatisfiesInv` | server/src/server.ts:93-118 | The start state has an empty, well-formed cache and a duplicate-free pattern list. |
| `Server.Initialize` | server/src/server.ts:38-72 | Records the negotiated flags and answers the client. Nothing else changes, and the invariant is kept. |
| `Server.DidChangeConfiguration` | server/src/server.ts:121-130 | Either empties the cache or replaces the global settings, depending on the capability. The request counter, flags and patterns are kept, and so is the invariant. |
| `Server.DidClose` | server/src/server.ts:152-154 | Only the closed document's cache entry goes: no entry is added, every other entry and the request counter are unchanged, and the rest of the state stays. The invariant is kept. |
| `Server.AppendPatternAsWritten` | server/src/server.ts:112-115 | The exported `appendPattern` as written: the list gains the pattern at its end whatever it already holds. Nothing else changes. |
| `Server.AppendPatternAsWrittenBreaksInv` | server/src/server.ts:97-115 | From the start state, appending the seed pattern as written yields a list with one string form twice, so the duplicate-free invariant fails. |
| `Server.AddPattern` | server/src/server.ts:112-115 | Corrected registration in the server state. Existing patterns keep their places. At most one is appended. The pattern is present afterwards and the invariant is kept. |
| `Server.BeginValidation` | server/src/server.ts:165-167 | The settings lookup before the `await`. Only the cache may change. Without the capability it yields the global settings and changes nothing. With it, a hit changes nothing; a miss issues exactly one request, numbered by the counter, which goes up by one. No other document gains or loses an entry. |
| `Server.BeginValidations` | server/src/server.ts:121-132 | The change handler's `documents.all().forEach(validateTextDocument)` up to each `await`: one settings lookup per open document, in order. With the configuration capability, a document already cached keeps its handle, any other gets a request for itself no older than the counter before the first lookup and below the counter after the last, and every open document is cached afterwards. Without it every handle is the global settings and the state is unchanged. Earlier cache entries are always kept, and only open documents gain entries. |
| `Server.BeginValidationsDistinctTickets` | server/src/server.ts:132-147 | With the capability, two open documents with different uris that were not cached get requests with different numbers, so each settles to the client's own answer. |
| `Server.ChangeRefreshesOpenDocuments` | server/src/server.ts:121-148 | With the capability, after a configuration change every open document's revalidation uses a new request and never a handle cached before the change. |
| `Server.FinishValidation` | server/src/server.ts:167-218 | A rejected request publishes nothing and changes nothing. `null` settings run `NullSettingsPass`: an empty set is published when nothing matches, and nothing is published after it throws. Otherwise the pass's diagnostics are published for the document as one replacement set of at most `maxNumberOfProblems` entries. In every case only the patterns' `lastIndex` values change. |
| `Server.ValidateTextDocument` | server/src/server.ts:165-219 | Any publish goes to the document's uri. A rejected request publishes nothing. `null` settings publish at most an empty set. Settings always publish, at most `maxNumberOfProblems` diagnostics. Flags and global settings are kept, and so is the invariant. |
| `Server.RevalidationReusesSettings` | server/src/server.ts:136-167 | With the capability, validating a document again reuses the first run's settings request and issues none. |
| `Server.ValidationAfterCloseResolvesAfresh` | server/src/server.ts:136-154 | After a close, validating the document again issues a new settings request, newer than any cached one. |
| `Server.FailedSettingsStayCached` | server/src/server.ts:136-167 | A failed settings request stays cached, so later validations of the same document also publish nothing. |
| `Scenario.SampleScanDefaultCap` | server/src/server.ts:181-213 | The seed pattern's loop on "FOO bar BAZ" with max 1000 reports FOO and BAZ, drops nothing and ends at `lastIndex` 0. |
| `Scenario.SampleScanCapOne` | server/src/server.ts:181-213 | With max 1 the loop reports FOO, drops BAZ and ends at `lastIndex` 11. |
| `Scenario.SampleWithDefaultCap` | server/src/server.ts:97-213 | "FOO bar BAZ" with the seed pattern and max 1000 gives two Warnings, over offsets 0-3 and 8-11. The pattern ends at `lastIndex` 0. |
| `Scenario.SampleWithCapOne` | server/src/server.ts:177-213 | With max 1 only FOO is reported. BAZ is the dropped match, and the pattern is left at `lastIndex` 11. |
| `Scenario.SampleWithNullSettings` | server/src/server.ts:167-181 | With `null` settings the first `exec` finds FOO and the pass throws, leaving the pattern at `lastIndex` 3. |
| `Scenario.LeftoverLastIndexHidesMatch` | server/src/server.ts:180-181 | After that capped pass, validating "AB" reports nothing although "AB" matches, and the pattern is back at 0. |

## Left out

- Transport and connection plumbing: creating the connection, `listen`, the `onInitialized` registration, the workspace-folder and watched-file log handlers. They only move messages or log.
- The document store (`TextDocuments`): opening, versions, incremental edits and `positionAt` live in a library that is not part of this model. `positionAt` is a parameter, and the document is given as (uri, text).
- The list of open documents (`documents.all()`) is a parameter of `Server.BeginValidations`.
- Interleaving at the `await`. `validateTextDocument` runs synchronously up to its `await`, so the configuration-change handler performs every open document's settings lookup at once; that is `Server.BeginValidations`. Only the part after the `await` is deferred, and `Server.FinishValidation` models it for one document. The order in which those deferred halves, and other events, run is not modelled. `Server.ValidateTextDocument`, the content-change handler, runs `BeginValidation` and `FinishValidation` back to back.
- The regular-expression engine is a parameter. Sticky-only matching (match exactly at `lastIndex`) belongs to the engine. Match offsets are whatever unit the engine and `positionAt` agree on; JavaScript's UTF-16 code units are not modelled.
- `maxNumberOfProblems` is an integer. Non-integral and NaN settings are not modelled.
- A configuration answer that is an object whose `maxNumberOfProblems` is missing, or converts to NaN, makes `problems < max` false, exactly as `ExampleSettings(0)` does, so it is not a separate case. `null` and `undefined` answers are `NullSettings`. `<` converts its operands with ToNumeric, so a string or boolean `maxNumberOfProblems` (such as "5" or `true`) acts as that number; such values are not modelled, because `ExampleSettings` holds an integer.
- Unhandled rejections. Both handlers call `validateTextDocument` without awaiting or catching its promise. So a rejected configuration request, or the TypeError that `null` settings raise in the loop condition, becomes an unhandled promise rejection. Depending on the Node.js version and on handlers installed outside this file, that prints a warning or ends the server process. The model covers only the pass itself: `Server.FinishValidation` publishes nothing and keeps the state, and the process-level effect is not modelled.
- The configuration payload is either settings or falsy (`None`). Truthy non-object payloads, and a change notification without a `settings` object, are not modelled. The fallback reads `languageServerExample` while the per-document request asks for section `cjpLinter`; both are kept as written.
- `Server.Inv` includes the duplicate-free pattern list, which only the corrected `Server.AddPattern` keeps. `Server.AppendPatternAsWritten` is the program's transition and breaks it (`Server.AppendPatternAsWrittenBreaksInv`).
- Object identity of patterns: the list holds values, so each entry has its own `lastIndex`. In the program, calling `appendPattern` twice with one RegExp object puts that object in the list twice, and both entries share one `lastIndex`. The model gives them separate ones.
- Completion item kinds are a subset of the protocol's list, and `documentation` is plain text only.
- `exportTestFunc` (it only logs), and the VS Code extension entry points (activation, commands, messages).
- Per-document version checks and coalescing of overlapping validations: the code has neither, so neither is modelled. Because the settings Thenable is cached, concurrent lookups for one document share a single request. The pattern list's duplicate check is broken (see Findings).

## Findings

| source | as written | input that shows it | evidently intended | confidence | as-written member | corrected member |
|---|---|---|---|---|---|---|
| server/src/server.ts:105-110 | `for (const item in patternList)` yields the index keys "0", "1", …, which are compared with `pattern.toString()`, so no duplicate is ever detected | `addPattern(/\b[A-Z]{2,}\b/g)` on the seed list leaves two entries with the same form | compare each element's string form (`for … of`, `item.toString()`), so that registration is idempotent | high, not executed | `Patterns.AddPatternDuplicatesDefault` | `Patterns.Register` |

=== FILE: capabilities.dfy ===
/** Capability negotiation: the `initialize` request of the Language Server
    Protocol as the `onInitialize` handler of server/src/server.ts answers
    it. Three flags are read off the client's capabilities; the reply
    always offers incremental sync and completion with resolve, and
    workspace-folder support only to a client that has it. */
module Capabilities {
  import opened Wrappers

  datatype WorkspaceClientCapabilities = WorkspaceClientCapabilities(
    configuration: Option<bool>,
    workspaceFolders: Option<bool>)

  datatype PublishDiagnosticsClientCapabilities = PublishDiagnosticsClientCapabilities(
    relatedInformation: Option<bool>)

  datatype TextDocumentClientCapabilities = TextDocumentClientCapabilities(
    publishDiagnostics: Option<PublishDiagnosticsClientCapabilities>)

  /** Every level may be absent, as in the protocol's optional fields. */
  datatype ClientCapabilities = ClientCapabilities(
    workspace: Option<WorkspaceClientCapabilities>,
    textDocument: Option<TextDocumentClientCapabilities>)

  datatype InitializeParams = InitializeParams(capabilities: ClientCapabilities)

  /** `hasConfigurationCapability`, `hasWorkspaceFolderCapability`,
      `hasDiagnosticRelatedInformationCapability`. */
  datatype ServerFlags = ServerFlags(
    hasConfigurationCapability: bool,
    hasWorkspaceFolderCapability: bool,
    hasDiagnosticRelatedInformationCapability: bool)

  /** The flags before `initialize`. */
  const NoCapabilities: ServerFlags := ServerFlags(false, false, false)

  datatype TextDocumentSyncKind = SyncNone | Full | Incremental

  datatype CompletionOptions = CompletionOptions(resolveProvider: bool)

  datatype WorkspaceFoldersServerCapabilities = WorkspaceFoldersServerCapabilities(supported: bool)

  datatype WorkspaceServerCapabilities = WorkspaceServerCapabilities(
    workspaceFolders: WorkspaceFoldersServerCapabilities)

  datatype ServerCapabilities = ServerCapabilities(
    textDocumentSync: TextDocumentSyncKind,
    completionProvider: CompletionOptions,
    workspace: Option<WorkspaceServerCapabilities>)

  datatype InitializeResult = InitializeResult(capabilities: ServerCapabilities)

  /** JavaScript truthiness of an optional boolean field. */
  predicate Truthy(b: Option<bool>)
  {
    b == Some(true)
  }

  /** Whether the client answers `workspace/configuration`. */
  predicate ClientHasConfiguration(c: ClientCapabilities)
  {
    c.workspace.Some? && Truthy(c.workspace.value.configuration)
  }

  /** Whether the client supports workspace folders. */
  predicate ClientHasWorkspaceFolders(c: ClientCapabilities)
  {
    c.workspace.Some? && Truthy(c.workspace.value.workspaceFolders)
  }

  /** Whether the client accepts related information on diagnostics. */
  predicate ClientHasRelatedInformation(c: ClientCapabilities)
  {
    && c.textDocument.Some?
    && c.textDocument.value.publishDiagnostics.Some?
    && Truthy(c.textDocument.value.publishDiagnostics.value.relatedInformation)
  }

  datatype Negotiation = Negotiation(flags: ServerFlags, result: InitializeResult)

  /** The `onInitialize` handler: each flag holds exactly when the client
      advertises the matching capability; the reply offers incremental
      sync and resolvable completion unconditionally, and announces
      workspace-folder support exactly when the client has it. */
  function OnInitialize(params: InitializeParams): (n: Negotiation)
    ensures n.flags.hasConfigurationCapability <==> ClientHasConfiguration(params.capabilities)
    ensures n.flags.hasWorkspaceFolderCapability <==> ClientHasWorkspaceFolders(params.capabilities)
    ensures n.flags.hasDiagnosticRelatedInformationCapability <==> ClientHasRelatedInformation(params.capabilities)
    ensures n.result.capabilities.textDocumentSync == Incremental
    ensures n.result.capabilities.completionProvider.resolveProvider
    ensures n.result.capabilities.workspace.Some? <==> n.flags.hasWorkspaceFolderCapability
    ensures n.result.capabilities.workspace.Some? ==>
      n.result.capabilities.workspace.value.workspaceFolders.supported
  {
    var caps := params.capabilities;
    var flags := ServerFlags(
      caps.workspace.Some? && Truthy(caps.workspace.value.configuration),
      caps.workspace.Some? && Truthy(caps.workspace.value.workspaceFolders),
      caps.textDocument.Some? && caps.textDocument.value.publishDiagnostics.Some? &&
        Truthy(caps.textDocument.value.publishDiagnostics.value.relatedInformation));
    var base := ServerCapabilities(Incremental, CompletionOptions(true), None);
    var capabilities :=
      if flags.hasWorkspaceFolderCapability
      then base.(workspace := Some(WorkspaceServerCapabilities(WorkspaceFoldersServerCapabilities(true))))
      else base;
    Negotiation(flags, InitializeResult(capabilities))
  }

  /** The reply depends on the client only through workspace-folder
      support: configuration and related-information support change the
      flags, never what the server advertises. */
  lemma ResultDependsOnlyOnWorkspaceFolders(a: InitializeParams, b: InitializeParams)
    requires ClientHasWorkspaceFolders(a.capabilities) == ClientHasWorkspaceFolders(b.capabilities)
    ensures OnInitialize(a).result == OnInitialize(b).result
  {
  }
}

=== FILE: completion.dfy ===
/** Completion (server/src/server.ts): `onCompletion` ignores where it was
    asked and offers the same two items; `onCompletionResolve` fills in
    detail and documentation for the two known `data` tokens. */
module Completion {
  import opened Wrappers
  import Protocol

  datatype CompletionItemKind = Text | Method | Function | Constructor | Field | Variable | Keyword

  /** The opaque `data` token: a number, anything else, or nothing. */
  datatype ItemData = NoData | Number(n: int) | OtherData(text: string)

  /** `labelText` is the protocol's `label` (a reserved word here). */
  datatype CompletionItem = CompletionItem(
    labelText: string,
    kind: Option<CompletionItemKind>,
    data: ItemData,
    detail: Option<string>,
    documentation: Option<string>)

  datatype TextDocumentPositionParams = TextDocumentPositionParams(uri: string, position: Protocol.Position)

  /** The two offered items. */
  function OnCompletion(params: TextDocumentPositionParams): (items: seq<CompletionItem>)
    ensures |items| == 2
    ensures items[0] == CompletionItem("TypeScript", Some(Text), Number(1), None, None)
    ensures items[1] == CompletionItem("JavaScript", Some(Text), Number(2), None, None)
  {
    [ CompletionItem("TypeScript", Some(Text), Number(1), None, None),
      CompletionItem("JavaScript", Some(Text), Number(2), None, None) ]
  }

  /** Resolve: data 1 gets the TypeScript texts, data 2 the JavaScript
      texts (strict equality, so only the number itself matches), any other
      item comes back unchanged. Label, kind and data never change. */
  function OnCompletionResolve(item: CompletionItem): (r: CompletionItem)
    ensures r.labelText == item.labelText && r.kind == item.kind && r.data == item.data
    ensures item.data == Number(1) ==>
      r.detail == Some("TypeScript details") && r.documentation == Some("TypeScript documentation")
    ensures item.data == Number(2) ==>
      r.detail == Some("JavaScript details") && r.documentation == Some("JavaScript documentation")
    ensures item.data != Number(1) && item.data != Number(2) ==> r == item
  {
    if item.data == Number(1) then
      item.(detail := Some("TypeScript details"), documentation := Some("TypeScript documentation"))
    else if item.data == Number(2) then
      item.(detail := Some("JavaScript details"), documentation := Some("JavaScript documentation"))
    else item
  }

  /** The offered list does not depend on the request. */
  lemma CompletionIgnoresPosition(a: TextDocumentPositionParams, b: TextDocumentPositionParams)
    ensures OnCompletion(a) == OnCompletion(b)
  {
  }

  /** Resolving twice is resolving once. */
  lemma ResolveIdempotent(item: CompletionItem)
    ensures OnCompletionResolve(OnCompletionResolve(item)) == OnCompletionResolve(item)
  {
  }

  /** Every offered item resolves to details that name its own label. */
  lemma OfferedItemsResolve(params: TextDocumentPositionParams)
    ensures forall item :: item in OnCompletion(params) ==>
      && OnCompletionResolve(item).detail == Some(item.labelText + " details")
      && OnCompletionResolve(item).documentation == Some(item.labelText + " documentation")
  {
    var items := OnCompletion(params);
    assert items[0].labelText + " details" == "TypeScript details";
    assert items[0].labelText + " documentation" == "TypeScript documentation";
    assert items[1].labelText + " details" == "JavaScript details";
    assert items[1].labelText + " documentation" == "JavaScript documentation";
  }
}

=== FILE: patterns.dfy ===
/** The pattern list of the validation pass (server/src/server.ts): an
    ordered list of RegExp objects, seeded with one default pattern and only
    ever appended to. `addPattern` guards the append with `isExistPattern`,
    whose `for (const item in patternList)` loop visits the array's index
    keys "0", "1", ... rather than its elements, so the guard compares index
    strings with the pattern's string form and never fires. Both the
    as-written pair and the corrected registration (compare string forms of
    the elements) are modelled here. */
module Patterns {
  import opened RegExps

  /** The seed list: `/\b[A-Z]{2,}\b/g` with `lastIndex` 0. */
  const InitialPatterns: seq<RegExp> := [RegExp("\\b[A-Z]{2,}\\b", "g", 0)]

  predicate IsDigit(c: char)
  {
    '0' <= c <= '9'
  }

  function DigitChar(d: nat): (c: char)
    requires d < 10
    ensures IsDigit(c)
  {
    "0123456789"[d]
  }

  /** The property key a for-in loop yields for array index `i`: its decimal
      numeral. */
  function IndexKey(i: nat): (key: string)
    ensures |key| > 0
    ensures forall j :: 0 <= j < |key| ==> IsDigit(key[j])
    decreases i
  {
    if i < 10 then [DigitChar(i)] else IndexKey(i / 10) + [DigitChar(i % 10)]
  }

  /** Whether one of the index keys `from`, ..., `count - 1` equals `s`,
      visiting them in ascending order as the for-in loop does. */
  function AnyKeyEquals(from: nat, count: nat, s: string): (found: bool)
    ensures found <==> exists i: nat :: from <= i < count && IndexKey(i) == s
    decreases count - from
  {
    if from >= count then false
    else if IndexKey(from) == s then assert from < count && IndexKey(from) == s; true
    else
      var rest := AnyKeyEquals(from + 1, count, s);
      assert (exists i: nat :: from <= i < count && IndexKey(i) == s) ==>
        exists i: nat :: from + 1 <= i < count && IndexKey(i) == s;
      assert rest ==> exists i: nat :: from <= i < count && IndexKey(i) == s by {
        if rest {
          var i: nat :| from + 1 <= i < count && IndexKey(i) == s;
          assert from <= i;
        }
      }
      rest
  }

  /** `isExistPattern` as written: true exactly when some index key of the
      list equals the pattern's string form. */
  function IsExistPattern(list: seq<RegExp>, pattern: RegExp): (found: bool)
    ensures found <==> exists i: nat :: i < |list| && IndexKey(i) == ToString(pattern)
  {
    var found := AnyKeyEquals(0, |list|, ToString(pattern));
    assert found ==> exists i: nat :: 0 <= i < |list| && IndexKey(i) == ToString(pattern);
    found
  }

  /** `addPattern` as written: append unless `isExistPattern` says the
      pattern is present. Existing entries keep their places; at most one
      entry is added, at the end. */
  function AddPattern(list: seq<RegExp>, pattern: RegExp): (list': seq<RegExp>)
    ensures IsExistPattern(list, pattern) ==> list' == list
    ensures !IsExistPattern(list, pattern) ==> list' == list + [pattern]
  {
    if IsExistPattern(list, pattern) then list else list + [pattern]
  }

  /** No index key is ever a RegExp's string form: keys are digits, the
      string form starts with '/'. */
  lemma IsExistPatternNeverHolds(list: seq<RegExp>, pattern: RegExp)
    ensures !IsExistPattern(list, pattern)
  {
    ToStringStartsWithSlash(pattern);
    forall i: nat | i < |list|
      ensures IndexKey(i) != ToString(pattern)
    {
      assert IsDigit(IndexKey(i)[0]);
    }
  }

  /** Hence `addPattern` as written always appends, duplicates included. */
  lemma AddPatternAlwaysAppends(list: seq<RegExp>, pattern: RegExp)
    ensures AddPattern(list, pattern) == list + [pattern]
    ensures |AddPattern(list, pattern)| == |list| + 1
    ensures AddPattern(list, pattern)[..|list|] == list
  {
    IsExistPatternNeverHolds(list, pattern);
  }

  /** The concrete input: adding the default pattern to the seed list yields
      two entries with the same string form. */
  lemma AddPatternDuplicatesDefault()
    ensures var list := AddPattern(InitialPatterns, InitialPatterns[0]);
      |list| == 2 && ToString(list[0]) == ToString(list[1])
  {
    AddPatternAlwaysAppends(InitialPatterns, InitialPatterns[0]);
  }

  /** The intended membership test: some element has the same string form. */
  function HasPattern(list: seq<RegExp>, pattern: RegExp): (found: bool)
    ensures found <==> exists i :: 0 <= i < |list| && ToString(list[i]) == ToString(pattern)
  {
    if list == [] then false
    else ToString(list[0]) == ToString(pattern) || HasPattern(list[1..], pattern)
  }

  /** No two entries share a string form. */
  predicate Distinct(list: seq<RegExp>)
  {
    forall i, j :: 0 <= i < j < |list| ==> ToString(list[i]) != ToString(list[j])
  }

  /** The corrected `addPattern`: append only when no element has the same
      string form. Existing entries keep their places, the pattern is
      present afterwards, and a list without duplicates stays so. */
  function Register(list: seq<RegExp>, pattern: RegExp): (list': seq<RegExp>)
    ensures HasPattern(list, pattern) ==> list' == list
    ensures !HasPattern(list, pattern) ==> list' == list + [pattern]
    ensures HasPattern(list', pattern)
    ensures Distinct(list) ==> Distinct(list')
  {
    if HasPattern(list, pattern) then list
    else
      assert ToString((list + [pattern])[|list|]) == ToString(pattern);
      list + [pattern]
  }

  /** Registering the same pattern twice is the same as registering it once. */
  lemma RegisterIdempotent(list: seq<RegExp>, pattern: RegExp)
    ensures Register(Register(list, pattern), pattern) == Register(list, pattern)
  {
  }

  /** The seed list has no duplicates. */
  lemma InitialPatternsDistinct()
    ensures Distinct(InitialPatterns)
  {
  }
}

=== FILE: protocol.dfy ===
/** The Language Server Protocol shapes the diagnostics pass produces:
    positions, ranges, diagnostics and the `textDocument/publishDiagnostics`
    payload. */
module Protocol {
  import opened Wrappers

  /** Zero-based line and character offset, as `TextDocument.positionAt`
      returns them. */
  datatype Position = Position(line: nat, character: nat)

  /** Lexicographic order on positions. */
  predicate PositionLe(a: Position, b: Position)
  {
    a.line < b.line || (a.line == b.line && a.character <= b.character)
  }

  datatype Range = Range(start: Position, end: Position)

  datatype Location = Location(uri: string, range: Range)

  datatype DiagnosticRelatedInformation = DiagnosticRelatedInformation(location: Location, message: string)

  datatype DiagnosticSeverity = Error | Warning | Information | Hint

  datatype Diagnostic = Diagnostic(
    severity: DiagnosticSeverity,
    range: Range,
    message: string,
    source: string,
    relatedInformation: Option<seq<DiagnosticRelatedInformation>>)

  /** The `publishDiagnostics` notification: the complete set for one
      document, replacing whatever was published for it before. */
  datatype PublishDiagnosticsParams = PublishDiagnosticsParams(uri: string, diagnostics: seq<Diagnostic>)

  /** `TextDocument.positionAt`, supplied by the document store. */
  type PositionAt = nat -> Position

  /** A `positionAt` that never maps a later offset to an earlier position. */
  ghost predicate Monotone(positionAt: PositionAt)
  {
    forall a: nat, b: nat :: a <= b ==> PositionLe(positionAt(a), positionAt(b))
  }
}

=== FILE: regexp.dfy ===
/** JavaScript regular-expression objects as the validation pass uses them:
    an immutable pattern (source text and flags) carrying the mutable
    `lastIndex` property, and `exec`, whose `lastIndex` bookkeeping follows
    RegExpBuiltinExec, section 22.2.7.2 of ECMA-262 (2023). Matching itself
    is abstract: an `Engine` answers "the leftmost match at or after an
    index". */
module RegExps {
  import opened Wrappers
  import Seqs

  /** A successful `exec` result: `m.index` and the matched text `m[0]`. */
  datatype Match = Match(index: nat, matched: string) {
    /** Offset just past the match, `m.index + m[0].length`. */
    function End(): nat { index + |matched| }
  }

  /** A RegExp object: `source` and `flags` never change; `lastIndex` does. */
  datatype RegExp = RegExp(source: string, flags: string, lastIndex: nat)

  /** The matcher: given (source, flags, input, from), the leftmost match of
      the pattern in `input` starting at or after `from`, or None. */
  type Engine = (string, string, string, nat) -> Option<Match>

  /** `m` is a genuine occurrence in `input` that starts at or after `from`. */
  predicate Within(m: Match, input: string, from: nat)
  {
    from <= m.index && m.End() <= |input| && input[m.index..m.End()] == m.matched
  }

  /** An engine whose every answer is a genuine occurrence at or after the
      requested index. */
  ghost predicate Sound(engine: Engine)
  {
    forall source, flags, input, from ::
      engine(source, flags, input, from).Some? ==>
        Within(engine(source, flags, input, from).value, input, from)
  }

  /** Whether `exec` reads and writes `lastIndex`: the global or sticky flag. */
  predicate UsesLastIndex(r: RegExp)
  {
    'g' in r.flags || 'y' in r.flags
  }

  /** Where `exec` starts looking: `lastIndex` for a global or sticky
      expression, otherwise 0. */
  function StartIndex(r: RegExp): nat
  {
    if UsesLastIndex(r) then r.lastIndex else 0
  }

  /** `RegExp.prototype.toString`: "/" + source + "/" + flags. */
  function ToString(r: RegExp): string
  {
    "/" + r.source + "/" + r.flags
  }

  lemma ToStringStartsWithSlash(r: RegExp)
    ensures |ToString(r)| >= 2 && ToString(r)[0] == '/'
  {
  }

  /** Two states of the same RegExp object differ at most in `lastIndex`. */
  predicate SamePattern(a: RegExp, b: RegExp)
  {
    a.source == b.source && a.flags == b.flags
  }

  datatype ExecResult = ExecResult(m: Option<Match>, after: RegExp)

  /** `r.exec(input)`: the match found from the start index, and the object
      afterwards. A global or sticky expression resets `lastIndex` to 0 on
      failure (including a start index past the end of the input) and moves
      it to the end of the match on success; any other expression leaves
      `lastIndex` alone. */
  function Exec(engine: Engine, r: RegExp, input: string): (e: ExecResult)
    ensures SamePattern(e.after, r)
    ensures !UsesLastIndex(r) ==> e.after == r
    ensures UsesLastIndex(r) && e.m.None? ==> e.after.lastIndex == 0
    ensures UsesLastIndex(r) && e.m.Some? ==> e.after.lastIndex == e.m.value.End()
    ensures StartIndex(r) > |input| ==> e.m.None?
    ensures StartIndex(r) <= |input| ==> e.m == engine(r.source, r.flags, input, StartIndex(r))
    ensures Sound(engine) && e.m.Some? ==> Within(e.m.value, input, StartIndex(r))
  {
    var start := StartIndex(r);
    if start > |input| then
      ExecResult(None, if UsesLastIndex(r) then r.(lastIndex := 0) else r)
    else
      match engine(r.source, r.flags, input, start)
      case None => ExecResult(None, if UsesLastIndex(r) then r.(lastIndex := 0) else r)
      case Some(m) => ExecResult(Some(m), if UsesLastIndex(r) then r.(lastIndex := m.End()) else r)
  }

  /** The matches of up to `n` successive `exec` calls on the same object,
      stopping at the first failure. */
  function Successive(engine: Engine, r: RegExp, input: string, n: nat): (ms: seq<Match>)
    ensures |ms| <= n
    decreases n
  {
    if n == 0 then []
    else
      var e := Exec(engine, r, input);
      if e.m.None? then [] else [e.m.value] + Successive(engine, e.after, input, n - 1)
  }

  /** The object after `n` successive `exec` calls. */
  function StateAfter(engine: Engine, r: RegExp, input: string, n: nat): (after: RegExp)
    ensures SamePattern(after, r)
    decreases n
  {
    if n == 0 then r else StateAfter(engine, Exec(engine, r, input).after, input, n - 1)
  }

  /** Fewer calls see a prefix of what more calls see. */
  lemma {:induction false} SuccessivePrefix(engine: Engine, r: RegExp, input: string, k: nat, n: nat)
    requires k <= n
    ensures Successive(engine, r, input, k) == Seqs.Take(Successive(engine, r, input, n), k)
    decreases k
  {
    if k > 0 {
      var e := Exec(engine, r, input);
      if e.m.Some? {
        SuccessivePrefix(engine, e.after, input, k - 1, n - 1);
      }
    }
  }

  /** With a sound engine, the successive matches of a global or sticky
      expression are genuine occurrences, the first at or after the starting
      `lastIndex`, each starting no earlier than the previous one ends. */
  lemma {:induction false} SuccessiveInOrder(engine: Engine, r: RegExp, input: string, n: nat)
    requires Sound(engine)
    requires UsesLastIndex(r)
    ensures var ms := Successive(engine, r, input, n);
      && (forall j :: 0 <= j < |ms| ==> Within(ms[j], input, 0))
      && (|ms| > 0 ==> r.lastIndex <= ms[0].index)
      && (forall j :: 0 <= j < |ms| - 1 ==> ms[j].End() <= ms[j + 1].index)
    decreases n
  {
    if n > 0 {
      var e := Exec(engine, r, input);
      if e.m.Some? {
        SuccessiveInOrder(engine, e.after, input, n - 1);
        var ms := Successive(engine, r, input, n);
        var rest := Successive(engine, e.after, input, n - 1);
        assert ms == [e.m.value] + rest;
        assert |rest| > 0 ==> e.m.value.End() <= rest[0].index;
      }
    }
  }

  /** An expression without the global or sticky flag never moves, so once
      it matches, every further `exec` returns the same match. */
  lemma {:induction false} NonGlobalRepeats(engine: Engine, r: RegExp, input: string, n: nat)
    requires !UsesLastIndex(r)
    requires Exec(engine, r, input).m.Some?
    ensures var ms := Successive(engine, r, input, n);
      |ms| == n && forall j :: 0 <= j < n ==> ms[j] == Exec(engine, r, input).m.value
    decreases n
  {
    if n > 0 {
      NonGlobalRepeats(engine, r, input, n - 1);
    }
  }
}

=== FILE: scenario.dfy ===
/** A concrete engine for the seed pattern `/\b[A-Z]{2,}\b/g` and the pass
    run on concrete documents with it. */
module Scenario {
  import opened Wrappers
  import opened RegExps
  import opened Protocol
  import Patterns
  import Validation

  predicate IsUpper(c: char)
  {
    'A' <= c <= 'Z'
  }

  /** `\w`: ASCII letters, digits and underscore. */
  predicate IsWordChar(c: char)
  {
    IsUpper(c) || ('a' <= c <= 'z') || ('0' <= c <= '9') || c == '_'
  }

  /** `\b` at offset `i`: exactly one side is a word character. */
  predicate Boundary(input: string, i: nat)
    requires i <= |input|
  {
    (i > 0 && IsWordChar(input[i - 1])) != (i < |input| && IsWordChar(input[i]))
  }

  /** End of the run of upper-case letters starting at `i`. */
  function UpperRunEnd(input: string, i: nat): (j: nat)
    requires i <= |input|
    ensures i <= j <= |input|
    ensures forall k :: i <= k < j ==> IsUpper(input[k])
    ensures j < |input| ==> !IsUpper(input[j])
    decreases |input| - i
  {
    if i < |input| && IsUpper(input[i]) then UpperRunEnd(input, i + 1) else i
  }

  /** The pattern anchored at `i`. Greedy `[A-Z]{2,}` takes the whole run;
      a shorter run would end between two letters, where `\b` fails. */
  function CapsWordAt(input: string, i: nat): (m: Option<Match>)
    requires i <= |input|
    ensures m.Some? ==> Within(m.value, input, i) && m.value.index == i
  {
    if !Boundary(input, i) then None
    else
      var j := UpperRunEnd(input, i);
      if j - i >= 2 && Boundary(input, j) then Some(Match(i, input[i..j])) else None
  }

  /** The leftmost match at or after `from`. */
  function FindCapsWord(input: string, from: nat): (m: Option<Match>)
    ensures m.Some? ==> Within(m.value, input, from)
    decreases |input| + 1 - from
  {
    if from > |input| then None
    else
      match CapsWordAt(input, from)
      case Some(m) => Some(m)
      case None => FindCapsWord(input, from + 1)
  }

  const SeedSource: string := Patterns.InitialPatterns[0].source

  /** The engine: the seed pattern matches as above, any other pattern never. */
  function CapsEngine(source: string, flags: string, input: string, from: nat): Option<Match>
  {
    if source == SeedSource then FindCapsWord(input, from) else None
  }

  const Sample: string := "FOO bar BAZ"

  lemma SampleMatches()
    ensures FindCapsWord(Sample, 0) == Some(Match(0, "FOO"))
    ensures FindCapsWord(Sample, 3) == Some(Match(8, "BAZ"))
    ensures FindCapsWord(Sample, 11) == None
  {
    assert Sample[0..3] == "FOO";
    assert UpperRunEnd(Sample, 0) == 3;
    assert CapsWordAt(Sample, 0) == Some(Match(0, "FOO"));
    assert CapsWordAt(Sample, 3) == None;
    assert CapsWordAt(Sample, 4) == None;
    assert CapsWordAt(Sample, 5) == None;
    assert CapsWordAt(Sample, 6) == None;
    assert CapsWordAt(Sample, 7) == None;
    assert Sample[8..11] == "BAZ";
    assert UpperRunEnd(Sample, 8) == 11;
    assert CapsWordAt(Sample, 8) == Some(Match(8, "BAZ"));
    assert UpperRunEnd(Sample, 11) == 11;
    assert CapsWordAt(Sample, 11) == None;
  }

  /** The three `exec` calls of a fresh seed pattern on the sample. */
  lemma SampleExecs()
    ensures var r0 := Patterns.InitialPatterns[0];
      var e1 := Exec(CapsEngine, r0, Sample);
      var e2 := Exec(CapsEngine, e1.after, Sample);
      var e3 := Exec(CapsEngine, e2.after, Sample);
      && e1 == ExecResult(Some(Match(0, "FOO")), r0.(lastIndex := 3))
      && e2 == ExecResult(Some(Match(8, "BAZ")), r0.(lastIndex := 11))
      && e3 == ExecResult(None, r0)
  {
    SampleMatches();
  }

  /** The inner loop on the sample with the default cap: both matches are
      reported and the third `exec` fails, so nothing is dropped. */
  lemma SampleScanDefaultCap()
    ensures var r0 := Patterns.InitialPatterns[0];
      Validation.ScanPattern(CapsEngine, r0, Sample, 0, 1000)
        == Validation.PatternScan([Match(0, "FOO"), Match(8, "BAZ")], r0, 2, None)
  {
    var r0 := Patterns.InitialPatterns[0];
    SampleExecs();
    var e1 := Exec(CapsEngine, r0, Sample);
    var e2 := Exec(CapsEngine, e1.after, Sample);
    assert Validation.ScanPattern(CapsEngine, e2.after, Sample, 2, 1000) == Validation.PatternScan([], r0, 2, None);
    assert Validation.ScanPattern(CapsEngine, e1.after, Sample, 1, 1000)
        == Validation.PatternScan([Match(8, "BAZ")], r0, 2, None);
  }

  /** The inner loop on the sample with a cap of 1: FOO is reported, and the
      second `exec` finds BAZ, which the cap drops. */
  lemma SampleScanCapOne()
    ensures var r0 := Patterns.InitialPatterns[0];
      Validation.ScanPattern(CapsEngine, r0, Sample, 0, 1)
        == Validation.PatternScan([Match(0, "FOO")], r0.(lastIndex := 11), 1, Some(Match(8, "BAZ")))
  {
    var r0 := Patterns.InitialPatterns[0];
    SampleExecs();
    var e1 := Exec(CapsEngine, r0, Sample);
    assert Validation.ScanPattern(CapsEngine, e1.after, Sample, 1, 1)
        == Validation.PatternScan([], r0.(lastIndex := 11), 1, Some(Match(8, "BAZ")));
  }

  /** With the default cap the sample yields two diagnostics, over FOO
      (offsets 0 to 3) and BAZ (offsets 8 to 11), and the pattern ends at
      `lastIndex` 0. */
  lemma SampleWithDefaultCap(uri: string, positionAt: PositionAt)
    ensures var r := Validation.ValidationPass(CapsEngine, Patterns.InitialPatterns, uri, Sample,
                                               positionAt, 1000, false);
      && |r.diagnostics| == 2
      && r.diagnostics[0].range == Range(positionAt(0), positionAt(3))
      && r.diagnostics[1].range == Range(positionAt(8), positionAt(11))
      && r.diagnostics[0].severity == Warning
      && r.diagnostics[1].severity == Warning
      && r.patterns == Patterns.InitialPatterns
  {
    var r0 := Patterns.InitialPatterns[0];
    SampleScanDefaultCap();
    var scan := Validation.ScanPatterns(CapsEngine, Patterns.InitialPatterns, Sample, 0, 1000);
    assert Patterns.InitialPatterns[1..] == [];
    assert scan.hits == Validation.Tag(r0, [Match(0, "FOO"), Match(8, "BAZ")]);
    assert scan.ends == [Validation.PatternEnd(2, r0, None)];
  }

  /** With a cap of 1 only FOO is reported; the cap stops the loop after
      `exec` has found BAZ, so the pattern is left at `lastIndex` 11. */
  lemma SampleWithCapOne(uri: string, positionAt: PositionAt)
    ensures var r := Validation.ValidationPass(CapsEngine, Patterns.InitialPatterns, uri, Sample,
                                               positionAt, 1, false);
      && |r.diagnostics| == 1
      && r.diagnostics[0].range == Range(positionAt(0), positionAt(3))
      && r.patterns == [Patterns.InitialPatterns[0].(lastIndex := 11)]
      && r.ends[0].cut == Some(Match(8, "BAZ"))
  {
    var r0 := Patterns.InitialPatterns[0];
    SampleScanCapOne();
    var scan := Validation.ScanPatterns(CapsEngine, Patterns.InitialPatterns, Sample, 0, 1);
    assert Patterns.InitialPatterns[1..] == [];
    assert scan.hits == Validation.Tag(r0, [Match(0, "FOO")]);
    assert scan.ends == [Validation.PatternEnd(1, r0.(lastIndex := 11), Some(Match(8, "BAZ")))];
  }

  /** With `null` settings the first `exec` finds FOO and the pass throws:
      nothing is published and the pattern is left at `lastIndex` 3. */
  lemma SampleWithNullSettings()
    ensures Validation.NullSettingsPass(CapsEngine, Patterns.InitialPatterns, Sample)
         == Validation.NullPass([Patterns.InitialPatterns[0].(lastIndex := 3)], true)
  {
    SampleExecs();
    assert Patterns.InitialPatterns[1..] == [];
  }

  const Short: string := "AB"

  /** The pattern list is shared by every pass, so a `lastIndex` left by a
      capped pass carries over: validating "AB" right after the capped pass
      above starts past its end, and `exec` fails at once. The document gets
      no diagnostic although "AB" matches. */
  lemma LeftoverLastIndexHidesMatch(uri: string, positionAt: PositionAt)
    ensures FindCapsWord(Short, 0) == Some(Match(0, "AB"))
    ensures var r := Validation.ValidationPass(CapsEngine, [Patterns.InitialPatterns[0].(lastIndex := 11)],
                                               uri, Short, positionAt, 1000, false);
      |r.diagnostics| == 0 && r.patterns == Patterns.InitialPatterns
  {
    assert Short[0..2] == "AB";
    assert UpperRunEnd(Short, 0) == 2;
    assert CapsWordAt(Short, 0) == Some(Match(0, "AB"));
    var stale := Patterns.InitialPatterns[0].(lastIndex := 11);
    assert Validation.ScanPattern(CapsEngine, stale, Short, 0, 1000)
        == Validation.PatternScan([], Patterns.InitialPatterns[0], 0, None);
    var scan := Validation.ScanPatterns(CapsEngine, [stale], Short, 0, 1000);
    assert [stale][1..] == [];
    assert Validation.ScanPatterns(CapsEngine, [], Short, 0, 1000) == Validation.PassScan([], [], 0);
    assert Validation.Tag(stale, []) == [];
    assert scan.hits == [];
    assert scan.ends == [Validation.PatternEnd(0, Patterns.InitialPatterns[0], None)];
  }
}

=== FILE: server.dfy ===
/** The language server of server/src/server.ts as one immutable state
    record with pure transitions: capability flags, the global settings,
    the per-document settings cache and the pattern list (with each
    pattern's `lastIndex`). `validateTextDocument` is split at its `await`:
    `BeginValidation` is the settings lookup done when it is called,
    `FinishValidation` the synchronous pass run once the settings arrive. */
module Server {
  import opened Wrappers
  import opened RegExps
  import opened Protocol
  import Patterns
  import Validation
  import opened Capabilities
  import opened Settings

  datatype ServerState = ServerState(
    flags: ServerFlags,
    globalSettings: ExampleSettings,
    documentSettings: SettingsCache,
    patternList: seq<RegExp>)

  /** The state at process start. */
  const Initial: ServerState :=
    ServerState(NoCapabilities, DefaultSettings, EmptyCache, Patterns.InitialPatterns)

  /** Invariant: the cache is well formed and no two patterns share a
      string form. */
  predicate Inv(s: ServerState)
  {
    Settings.Valid(s.documentSettings) && Patterns.Distinct(s.patternList)
  }

  lemma InitialSatisfiesInv()
    ensures Inv(Initial)
  {
    Patterns.InitialPatternsDistinct();
  }

  datatype Initialized = Initialized(state: ServerState, result: InitializeResult)

  /** `onInitialize`: records the negotiated flags and changes nothing else. */
  function Initialize(s: ServerState, params: InitializeParams): (r: Initialized)
    ensures r.state == s.(flags := OnInitialize(params).flags)
    ensures r.result == OnInitialize(params).result
    ensures Inv(s) ==> Inv(r.state)
  {
    var n := OnInitialize(params);
    Initialized(s.(flags := n.flags), n.result)
  }

  /** `onDidChangeConfiguration`, without the revalidation of open
      documents (`BeginValidations`). */
  function DidChangeConfiguration(s: ServerState, change: DidChangeConfigurationParams): (s': ServerState)
    ensures s'.flags == s.flags && s'.patternList == s.patternList
    ensures s.flags.hasConfigurationCapability ==>
      s'.documentSettings.entries == map[] && s'.globalSettings == s.globalSettings
    ensures s'.documentSettings.resolutions == s.documentSettings.resolutions
    ensures !s.flags.hasConfigurationCapability ==>
      s'.documentSettings == s.documentSettings &&
      s'.globalSettings == change.languageServerExample.GetOr(DefaultSettings)
    ensures Inv(s) ==> Inv(s')
  {
    var c := OnDidChangeConfiguration(s.flags.hasConfigurationCapability, s.globalSettings,
                                      s.documentSettings, change);
    s.(globalSettings := c.globalSettings, documentSettings := c.cache)
  }

  /** `documents.onDidClose`: forgets the document's cached settings. */
  function DidClose(s: ServerState, uri: string): (s': ServerState)
    ensures s' == s.(documentSettings := s'.documentSettings)
    ensures uri !in s'.documentSettings.entries
    ensures forall u :: u != uri && u in s.documentSettings.entries ==>
      u in s'.documentSettings.entries && s'.documentSettings.entries[u] == s.documentSettings.entries[u]
    ensures forall u :: u in s'.documentSettings.entries ==> u in s.documentSettings.entries
    ensures s'.documentSettings.resolutions == s.documentSettings.resolutions
    ensures Inv(s) ==> Inv(s')
  {
    s.(documentSettings := OnDidClose(s.documentSettings, uri))
  }

  /** `appendPattern` (the exported `addPattern`) as written: the pattern is
      always appended, since the duplicate check never fires. Nothing else
      changes and the settings cache stays well formed, but the list may
      stop being free of duplicates. */
  function AppendPatternAsWritten(s: ServerState, pattern: RegExp): (s': ServerState)
    ensures s'.patternList == s.patternList + [pattern]
    ensures s' == s.(patternList := s'.patternList)
    ensures Settings.Valid(s.documentSettings) ==> Settings.Valid(s'.documentSettings)
  {
    Patterns.AddPatternAlwaysAppends(s.patternList, pattern);
    s.(patternList := Patterns.AddPattern(s.patternList, pattern))
  }

  /** From the start state, appending the seed pattern as written breaks the
      invariant: the list holds the same string form twice. */
  lemma AppendPatternAsWrittenBreaksInv()
    ensures Inv(Initial)
    ensures !Inv(AppendPatternAsWritten(Initial, Patterns.InitialPatterns[0]))
  {
    InitialSatisfiesInv();
    var s' := AppendPatternAsWritten(Initial, Patterns.InitialPatterns[0]);
    assert ToString(s'.patternList[0]) == ToString(s'.patternList[1]);
  }

  /** Pattern registration, with the string-form comparison the duplicate
      check was meant to make: existing patterns keep their places and
      states, a new form is appended, a known form is ignored. */
  function AddPattern(s: ServerState, pattern: RegExp): (s': ServerState)
    ensures s' == s.(patternList := s'.patternList)
    ensures |s.patternList| <= |s'.patternList| <= |s.patternList| + 1
    ensures s'.patternList[..|s.patternList|] == s.patternList
    ensures Patterns.HasPattern(s'.patternList, pattern)
    ensures Inv(s) ==> Inv(s')
  {
    s.(patternList := Patterns.Register(s.patternList, pattern))
  }

  /** A document as the validation pass reads it. */
  datatype TextDocument = TextDocument(uri: string, text: string)

  datatype Pending = Pending(state: ServerState, handle: SettingsHandle)

  /** The part of `validateTextDocument` before its `await`: the settings
      lookup, which may issue and cache a configuration request. */
  function BeginValidation(s: ServerState, doc: TextDocument): (p: Pending)
    ensures p.state == s.(documentSettings := p.state.documentSettings)
    ensures !s.flags.hasConfigurationCapability ==>
      p.state == s && p.handle == Resolved(s.globalSettings)
    ensures s.flags.hasConfigurationCapability ==>
      && doc.uri in p.state.documentSettings.entries
      && p.state.documentSettings.entries[doc.uri] == p.handle
      && (doc.uri in s.documentSettings.entries ==> p.state.documentSettings == s.documentSettings)
      && (doc.uri !in s.documentSettings.entries ==>
            p.handle == Requested(s.documentSettings.resolutions, doc.uri, ConfigurationSection))
    ensures s.flags.hasConfigurationCapability && doc.uri !in s.documentSettings.entries ==>
      p.state.documentSettings.resolutions == s.documentSettings.resolutions + 1
    ensures forall u :: u in s.documentSettings.entries ==>
      u in p.state.documentSettings.entries && p.state.documentSettings.entries[u] == s.documentSettings.entries[u]
    ensures forall u :: u != doc.uri ==> (u in p.state.documentSettings.entries <==> u in s.documentSettings.entries)
    ensures s.documentSettings.resolutions <= p.state.documentSettings.resolutions
    ensures Inv(s) ==> Inv(p.state)
  {
    var l := GetDocumentSettings(s.flags.hasConfigurationCapability, s.globalSettings,
                                 s.documentSettings, doc.uri);
    Pending(s.(documentSettings := l.cache), l.handle)
  }

  datatype Begun = Begun(state: ServerState, handles: seq<SettingsHandle>)

  /** The documents' uris, in order. */
  function Uris(docs: seq<TextDocument>): (uris: seq<string>)
    ensures |uris| == |docs| && forall i :: 0 <= i < |docs| ==> uris[i] == docs[i].uri
  {
    seq(|docs|, i requires 0 <= i < |docs| => docs[i].uri)
  }

  /** `documents.all().forEach(validateTextDocument)` up to each call's
      `await`: the settings lookups for the open documents, in order, each
      run before the handler that started them returns. With the
      configuration capability, a document already cached keeps its handle
      and any other gets a request of its own, at least as new as the
      counter before the first lookup. */
  function BeginValidations(s: ServerState, docs: seq<TextDocument>): (b: Begun)
    ensures b.state == s.(documentSettings := b.state.documentSettings)
    ensures |b.handles| == |docs|
    ensures !s.flags.hasConfigurationCapability ==>
      b.state == s && forall i :: 0 <= i < |docs| ==> b.handles[i] == Resolved(s.globalSettings)
    ensures s.flags.hasConfigurationCapability ==> forall i :: 0 <= i < |docs| ==>
      && docs[i].uri in b.state.documentSettings.entries
      && b.state.documentSettings.entries[docs[i].uri] == b.handles[i]
    ensures s.flags.hasConfigurationCapability ==> forall i :: 0 <= i < |docs| ==>
      if docs[i].uri in s.documentSettings.entries
      then b.handles[i] == s.documentSettings.entries[docs[i].uri]
      else
        && b.handles[i].Requested?
        && b.handles[i].scopeUri == docs[i].uri && b.handles[i].section == ConfigurationSection
        && s.documentSettings.resolutions <= b.handles[i].ticket < b.state.documentSettings.resolutions
    ensures forall u :: u in s.documentSettings.entries ==>
      u in b.state.documentSettings.entries && b.state.documentSettings.entries[u] == s.documentSettings.entries[u]
    ensures forall u :: u in b.state.documentSettings.entries && u !in s.documentSettings.entries ==>
      exists i :: 0 <= i < |docs| && docs[i].uri == u
    ensures s.documentSettings.resolutions <= b.state.documentSettings.resolutions
    ensures Inv(s) ==> Inv(b.state)
  {
    var uris := Uris(docs);
    var l := GetAllDocumentSettings(s.flags.hasConfigurationCapability, s.globalSettings, s.documentSettings, uris);
    assert s.flags.hasConfigurationCapability ==> forall i :: 0 <= i < |docs| ==>
      && uris[i] in l.cache.entries && l.cache.entries[uris[i]] == l.handles[i]
      && if uris[i] in s.documentSettings.entries
         then l.handles[i] == s.documentSettings.entries[uris[i]]
         else
           && l.handles[i].Requested?
           && l.handles[i].scopeUri == uris[i] && l.handles[i].section == ConfigurationSection
           && s.documentSettings.resolutions <= l.handles[i].ticket < l.cache.resolutions
    by {
      if s.flags.hasConfigurationCapability {
        forall i | 0 <= i < |docs| {
          LookupOfEach(s.globalSettings, s.documentSettings, uris, i);
        }
      }
    }
    Begun(s.(documentSettings := l.cache), l.handles)
  }

  /** With the configuration capability, two open documents with different
      uris that were not cached get requests with different numbers, so
      each settles to the client's own answer for it. */
  lemma BeginValidationsDistinctTickets(s: ServerState, docs: seq<TextDocument>, i: nat, j: nat)
    requires s.flags.hasConfigurationCapability
    requires i < |docs| && j < |docs| && docs[i].uri != docs[j].uri
    requires docs[i].uri !in s.documentSettings.entries && docs[j].uri !in s.documentSettings.entries
    ensures var b := BeginValidations(s, docs);
      b.handles[i].Requested? && b.handles[j].Requested? && b.handles[i].ticket != b.handles[j].ticket
  {
    DistinctResourcesGetDistinctTickets(s.globalSettings, s.documentSettings, Uris(docs), i, j);
  }

  /** With the configuration capability, a configuration change makes every
      open document's revalidation issue a new request: none of the handles
      the cache held before comes back, and every open document is cached
      again before the handler returns. */
  lemma ChangeRefreshesOpenDocuments(s: ServerState, change: DidChangeConfigurationParams, docs: seq<TextDocument>)
    requires Settings.Valid(s.documentSettings)
    requires s.flags.hasConfigurationCapability
    ensures var b := BeginValidations(DidChangeConfiguration(s, change), docs);
      && (forall i :: 0 <= i < |docs| ==>
            && b.handles[i].Requested?
            && s.documentSettings.resolutions <= b.handles[i].ticket
            && docs[i].uri in b.state.documentSettings.entries)
      && (forall i, u :: 0 <= i < |docs| && u in s.documentSettings.entries ==>
            s.documentSettings.entries[u] != b.handles[i])
  {
  }

  datatype Outcome = Outcome(state: ServerState, publish: Option<PublishDiagnosticsParams>)

  /** The part after the `await`. A rejected request aborts the pass:
      nothing is published and nothing changes. `null` settings make the
      pass throw at the first match, after that pattern's `exec` has moved
      it; when nothing matches, an empty set is published. Otherwise the
      pass runs over the current pattern list, its diagnostics (at most
      `maxNumberOfProblems`) are published for the document as one
      replacement, and the patterns keep their forms while their
      `lastIndex` values move. */
  function FinishValidation(s: ServerState, doc: TextDocument, handle: SettingsHandle,
                            answers: nat -> ConfigurationAnswer,
                            engine: Engine, positionAt: PositionAt): (o: Outcome)
    ensures Settle(handle, answers).Rejected? ==> o == Outcome(s, None)
    ensures Settle(handle, answers).NullSettings? ==>
      var n := Validation.NullSettingsPass(engine, s.patternList, doc.text);
      && o.state == s.(patternList := n.patterns)
      && (o.publish.Some? <==> !n.threw)
      && (o.publish.Some? ==> o.publish.value == PublishDiagnosticsParams(doc.uri, []))
    ensures Settle(handle, answers).Answered? ==>
      var max := Settle(handle, answers).settings.maxNumberOfProblems;
      var pass := Validation.ValidationPass(engine, s.patternList, doc.uri, doc.text, positionAt, max,
                                            s.flags.hasDiagnosticRelatedInformationCapability);
      && o.publish == Some(PublishDiagnosticsParams(doc.uri, pass.diagnostics))
      && |pass.diagnostics| <= Validation.Budget(0, max)
      && o.state == s.(patternList := pass.patterns)
    ensures |o.state.patternList| == |s.patternList|
    ensures forall i :: 0 <= i < |s.patternList| ==> SamePattern(o.state.patternList[i], s.patternList[i])
    ensures Inv(s) ==> Inv(o.state)
  {
    match Settle(handle, answers)
    case Rejected => Outcome(s, None)
    case NullSettings =>
      var n := Validation.NullSettingsPass(engine, s.patternList, doc.text);
      Validation.NullPassKeepsForms(engine, s.patternList, doc.text);
      SamePatternsKeepDistinct(s.patternList, n.patterns);
      Outcome(s.(patternList := n.patterns), if n.threw then None else Some(PublishDiagnosticsParams(doc.uri, [])))
    case Answered(settings) =>
      var pass := Validation.ValidationPass(engine, s.patternList, doc.uri, doc.text, positionAt,
                                            settings.maxNumberOfProblems,
                                            s.flags.hasDiagnosticRelatedInformationCapability);
      SamePatternsKeepDistinct(s.patternList, pass.patterns);
      Outcome(s.(patternList := pass.patterns), Some(PublishDiagnosticsParams(doc.uri, pass.diagnostics)))
  }

  /** Replacing patterns by other states of the same objects keeps the
      list free of duplicate string forms. */
  lemma SamePatternsKeepDistinct(before: seq<RegExp>, after: seq<RegExp>)
    requires |before| == |after|
    requires forall i :: 0 <= i < |before| ==> SamePattern(after[i], before[i])
    ensures Patterns.Distinct(before) ==> Patterns.Distinct(after)
  {
    if Patterns.Distinct(before) {
      forall i, j | 0 <= i < j < |after|
        ensures ToString(after[i]) != ToString(after[j])
      {
        assert ToString(after[i]) == ToString(before[i]);
        assert ToString(after[j]) == ToString(before[j]);
      }
    }
  }

  /** `validateTextDocument` run without anything interleaved at its
      `await`. */
  function ValidateTextDocument(s: ServerState, doc: TextDocument, answers: nat -> ConfigurationAnswer,
                                engine: Engine, positionAt: PositionAt): (o: Outcome)
    ensures o.state.flags == s.flags && o.state.globalSettings == s.globalSettings
    ensures o.publish.Some? ==> o.publish.value.uri == doc.uri
    ensures var settled := Settle(BeginValidation(s, doc).handle, answers);
      && (settled.Rejected? ==> o.publish.None?)
      && (settled.NullSettings? && o.publish.Some? ==> o.publish.value.diagnostics == [])
      && (settled.Answered? ==>
            o.publish.Some? &&
            |o.publish.value.diagnostics| <= Validation.Budget(0, settled.settings.maxNumberOfProblems))
    ensures Inv(s) ==> Inv(o.state)
  {
    var p := BeginValidation(s, doc);
    FinishValidation(p.state, doc, p.handle, answers, engine, positionAt)
  }

  /** Validating the same document twice with the configuration capability:
      the second run reuses the first run's settings request and issues no
      new one, so both runs see the same settings. */
  lemma RevalidationReusesSettings(s: ServerState, doc: TextDocument, answers: nat -> ConfigurationAnswer,
                                   engine: Engine, positionAt: PositionAt)
    requires s.flags.hasConfigurationCapability
    ensures var first := ValidateTextDocument(s, doc, answers, engine, positionAt);
      var again := BeginValidation(first.state, doc);
      && again.handle == BeginValidation(s, doc).handle
      && again.state.documentSettings == first.state.documentSettings
  {
    var p := BeginValidation(s, doc);
    var first := FinishValidation(p.state, doc, p.handle, answers, engine, positionAt);
    assert first.state.documentSettings == p.state.documentSettings;
    SecondLookupHits(s.globalSettings, s.documentSettings, doc.uri);
  }

  /** Closing a document and validating it again resolves its settings
      afresh: the request issued is newer than any cached one. */
  lemma ValidationAfterCloseResolvesAfresh(s: ServerState, doc: TextDocument)
    requires Settings.Valid(s.documentSettings)
    requires s.flags.hasConfigurationCapability
    ensures var p := BeginValidation(DidClose(s, doc.uri), doc);
      && p.handle == Requested(s.documentSettings.resolutions, doc.uri, ConfigurationSection)
      && p.state.documentSettings.resolutions == s.documentSettings.resolutions + 1
      && forall u :: u in s.documentSettings.entries ==> s.documentSettings.entries[u] != p.handle
  {
    LookupAfterCloseIsFresh(s.globalSettings, s.documentSettings, doc.uri);
  }

  /** A validation whose settings request failed is cached as such: until
      the document closes or the configuration changes, every later
      validation of it aborts too. */
  lemma FailedSettingsStayCached(s: ServerState, doc: TextDocument, answers: nat -> ConfigurationAnswer,
                                 engine: Engine, positionAt: PositionAt)
    requires s.flags.hasConfigurationCapability
    requires Settle(BeginValidation(s, doc).handle, answers).Rejected?
    ensures var first := ValidateTextDocument(s, doc, answers, engine, positionAt);
      first.publish.None? &&
      ValidateTextDocument(first.state, doc, answers, engine, positionAt).publish.None?
  {
    var first := ValidateTextDocument(s, doc, answers, engine, positionAt);
    SecondLookupHits(s.globalSettings, s.documentSettings, doc.uri);
  }
}

=== FILE: settings.dfy ===
/** The settings of server/src/server.ts: `ExampleSettings`, the defaults,
    the global fallback, and the per-document cache of settings Thenables.
    A Thenable is modelled as a handle: either an already-resolved value
    (`Promise.resolve(globalSettings)`) or the `workspace/configuration`
    request with a given sequence number. The cache counts the requests it
    has issued, so memoisation reads as "no new request on a hit". */
module Settings {
  import opened Wrappers

  datatype ExampleSettings = ExampleSettings(maxNumberOfProblems: int)

  /** `defaultSettings`. */
  const DefaultSettings: ExampleSettings := ExampleSettings(1000)

  /** The configuration section the per-document request asks for. */
  const ConfigurationSection: string := "cjpLinter"

  datatype SettingsHandle =
    | Resolved(settings: ExampleSettings)
    | Requested(ticket: nat, scopeUri: string, section: string)

  /** `documentSettings`, plus the number of configuration requests sent. */
  datatype SettingsCache = SettingsCache(entries: map<string, SettingsHandle>, resolutions: nat)

  const EmptyCache: SettingsCache := SettingsCache(map[], 0)

  /** Every cached entry is a request for its own document and the cached
      section, numbered below the request counter. */
  predicate Valid(c: SettingsCache)
  {
    forall uri :: uri in c.entries ==>
      && c.entries[uri].Requested?
      && c.entries[uri].ticket < c.resolutions
      && c.entries[uri].scopeUri == uri
      && c.entries[uri].section == ConfigurationSection
  }

  datatype Lookup = Lookup(handle: SettingsHandle, cache: SettingsCache)

  /** `getDocumentSettings(resource)`. Without the configuration capability
      it hands back the global settings and leaves the cache alone. With it,
      a cached entry is returned as is; otherwise a new request (numbered by
      the counter) is issued and stored. No other entry changes. */
  function GetDocumentSettings(hasConfigurationCapability: bool, globalSettings: ExampleSettings,
                               cache: SettingsCache, resource: string): (l: Lookup)
    ensures !hasConfigurationCapability ==> l == Lookup(Resolved(globalSettings), cache)
    ensures hasConfigurationCapability ==>
      resource in l.cache.entries && l.cache.entries[resource] == l.handle
    ensures hasConfigurationCapability && resource in cache.entries ==> l.cache == cache
    ensures hasConfigurationCapability && resource !in cache.entries ==>
      && l.handle == Requested(cache.resolutions, resource, ConfigurationSection)
      && l.cache.resolutions == cache.resolutions + 1
    ensures forall u :: u != resource ==>
      (u in l.cache.entries <==> u in cache.entries) &&
      (u in cache.entries ==> l.cache.entries[u] == cache.entries[u])
    ensures Valid(cache) ==> Valid(l.cache)
  {
    if !hasConfigurationCapability then Lookup(Resolved(globalSettings), cache)
    else if resource in cache.entries then Lookup(cache.entries[resource], cache)
    else
      var handle := Requested(cache.resolutions, resource, ConfigurationSection);
      Lookup(handle, SettingsCache(cache.entries[resource := handle], cache.resolutions + 1))
  }

  datatype Lookups = Lookups(handles: seq<SettingsHandle>, cache: SettingsCache)

  /** Looking up several resources in order, each lookup seeing the cache
      the previous one left. Only the looked-up resources gain entries; what
      each lookup returns is stated by `LookupOfEach`. */
  function GetAllDocumentSettings(hasConfigurationCapability: bool, globalSettings: ExampleSettings,
                                  cache: SettingsCache, resources: seq<string>): (l: Lookups)
    ensures |l.handles| == |resources|
    ensures !hasConfigurationCapability ==>
      l.cache == cache && forall i :: 0 <= i < |resources| ==> l.handles[i] == Resolved(globalSettings)
    ensures forall u :: u in cache.entries ==> u in l.cache.entries && l.cache.entries[u] == cache.entries[u]
    ensures forall u :: u in l.cache.entries && u !in cache.entries ==> u in resources
    ensures cache.resolutions <= l.cache.resolutions
    ensures Valid(cache) ==> Valid(l.cache)
    decreases |resources|
  {
    if resources == [] then Lookups([], cache)
    else
      var first := GetDocumentSettings(hasConfigurationCapability, globalSettings, cache, resources[0]);
      var rest := GetAllDocumentSettings(hasConfigurationCapability, globalSettings, first.cache, resources[1..]);
      assert forall i :: 1 <= i < |resources| ==> resources[i] == resources[1..][i - 1];
      Lookups([first.handle] + rest.handles, rest.cache)
  }

  /** With the capability, every looked-up resource ends up cached with the
      handle its lookup returned. A resource cached before keeps its handle;
      any other gets a request for itself, numbered from the counter before
      the first lookup and below the counter after the last. */
  lemma {:induction false} LookupOfEach(globalSettings: ExampleSettings, cache: SettingsCache,
                                        resources: seq<string>, i: nat)
    requires i < |resources|
    ensures var l := GetAllDocumentSettings(true, globalSettings, cache, resources);
      && resources[i] in l.cache.entries && l.cache.entries[resources[i]] == l.handles[i]
      && if resources[i] in cache.entries
         then l.handles[i] == cache.entries[resources[i]]
         else
           && l.handles[i].Requested?
           && l.handles[i].scopeUri == resources[i] && l.handles[i].section == ConfigurationSection
           && cache.resolutions <= l.handles[i].ticket < l.cache.resolutions
    decreases |resources|
  {
    var first := GetDocumentSettings(true, globalSettings, cache, resources[0]);
    var rest := GetAllDocumentSettings(true, globalSettings, first.cache, resources[1..]);
    var l := GetAllDocumentSettings(true, globalSettings, cache, resources);
    assert l == Lookups([first.handle] + rest.handles, rest.cache);
    if i > 0 {
      assert resources[i] == resources[1..][i - 1];
      LookupOfEach(globalSettings, first.cache, resources[1..], i - 1);
    }
  }

  /** With the capability, two resources that were not cached get requests
      with different numbers, so each settles to the client's own answer
      for it. */
  lemma {:induction false} DistinctResourcesGetDistinctTickets(globalSettings: ExampleSettings, cache: SettingsCache,
                                                               resources: seq<string>, i: nat, j: nat)
    requires i < |resources| && j < |resources| && resources[i] != resources[j]
    requires resources[i] !in cache.entries && resources[j] !in cache.entries
    ensures var l := GetAllDocumentSettings(true, globalSettings, cache, resources);
      l.handles[i].Requested? && l.handles[j].Requested? && l.handles[i].ticket != l.handles[j].ticket
    decreases |resources|
  {
    var first := GetDocumentSettings(true, globalSettings, cache, resources[0]);
    var rest := GetAllDocumentSettings(true, globalSettings, first.cache, resources[1..]);
    var l := GetAllDocumentSettings(true, globalSettings, cache, resources);
    assert l == Lookups([first.handle] + rest.handles, rest.cache);
    LookupOfEach(globalSettings, cache, resources, i);
    LookupOfEach(globalSettings, cache, resources, j);
    if i > 0 {
      assert resources[i] == resources[1..][i - 1];
      LookupOfEach(globalSettings, first.cache, resources[1..], i - 1);
    }
    if j > 0 {
      assert resources[j] == resources[1..][j - 1];
      LookupOfEach(globalSettings, first.cache, resources[1..], j - 1);
    }
    if i > 0 && j > 0 && resources[i] != resources[0] && resources[j] != resources[0] {
      DistinctResourcesGetDistinctTickets(globalSettings, first.cache, resources[1..], i - 1, j - 1);
    }
  }

  /** The `onDidChangeConfiguration` payload: `settings.languageServerExample`,
      None standing for any falsy value. */
  datatype DidChangeConfigurationParams = DidChangeConfigurationParams(languageServerExample: Option<ExampleSettings>)

  datatype Configuration = Configuration(globalSettings: ExampleSettings, cache: SettingsCache)

  /** The configuration-change handler. With the configuration capability
      the whole cache is emptied and the global settings stay; without it
      the global settings become the payload's, or the defaults when that
      is missing, and the cache stays. */
  function OnDidChangeConfiguration(hasConfigurationCapability: bool, globalSettings: ExampleSettings,
                                    cache: SettingsCache, change: DidChangeConfigurationParams): (c: Configuration)
    ensures hasConfigurationCapability ==>
      c.cache.entries == map[] && c.cache.resolutions == cache.resolutions && c.globalSettings == globalSettings
    ensures !hasConfigurationCapability ==> c.cache == cache
    ensures !hasConfigurationCapability && change.languageServerExample.Some? ==>
      c.globalSettings == change.languageServerExample.value
    ensures !hasConfigurationCapability && change.languageServerExample.None? ==>
      c.globalSettings.maxNumberOfProblems == 1000
    ensures Valid(cache) ==> Valid(c.cache)
  {
    if hasConfigurationCapability then
      Configuration(globalSettings, SettingsCache(map[], cache.resolutions))
    else
      Configuration(change.languageServerExample.GetOr(DefaultSettings), cache)
  }

  /** The close handler: drops the closed document's entry and nothing else. */
  function OnDidClose(cache: SettingsCache, uri: string): (c: SettingsCache)
    ensures uri !in c.entries
    ensures c.resolutions == cache.resolutions
    ensures forall u :: u != uri ==>
      (u in c.entries <==> u in cache.entries) &&
      (u in cache.entries ==> c.entries[u] == cache.entries[u])
    ensures Valid(cache) ==> Valid(c)
  {
    SettingsCache(cache.entries - {uri}, cache.resolutions)
  }

  /** What the client may answer to a configuration request: a rejection,
      `null` (or `undefined`, as for a section it does not define), or a
      settings object. */
  datatype ConfigurationAnswer = Rejected | NullSettings | Answered(settings: ExampleSettings)

  /** What awaiting a handle yields: a resolved value is the settings it
      carries; a request yields whatever the client answered to that request.
      The answer is looked up by request number, so a cached handle always
      settles to the same answer. */
  function Settle(handle: SettingsHandle, answers: nat -> ConfigurationAnswer): (a: ConfigurationAnswer)
    ensures handle.Resolved? ==> a == Answered(handle.settings)
    ensures handle.Requested? ==> a == answers(handle.ticket)
  {
    match handle
    case Resolved(s) => Answered(s)
    case Requested(ticket, _, _) => answers(ticket)
  }

  /** Without the configuration capability no request is made: the lookup
      settles to the global settings whatever the client would answer. */
  lemma WithoutCapabilitySettlesToGlobal(globalSettings: ExampleSettings, cache: SettingsCache, resource: string,
                                         answers: nat -> ConfigurationAnswer)
    ensures Settle(GetDocumentSettings(false, globalSettings, cache, resource).handle, answers) == Answered(globalSettings)
  {
  }

  /** With the capability, a lookup settles to the client's answer to the
      request cached for the resource: an earlier one on a hit, a new one on
      a miss. */
  lemma WithCapabilitySettlesToAnswer(globalSettings: ExampleSettings, cache: SettingsCache, resource: string,
                                      answers: nat -> ConfigurationAnswer)
    requires Valid(cache)
    ensures var l := GetDocumentSettings(true, globalSettings, cache, resource);
      && (resource in cache.entries ==> Settle(l.handle, answers) == answers(cache.entries[resource].ticket))
      && (resource !in cache.entries ==> Settle(l.handle, answers) == answers(cache.resolutions))
  {
  }

  /** Memoisation: with the capability, a second lookup of the same
      resource returns the first lookup's handle and issues no request. */
  lemma SecondLookupHits(globalSettings: ExampleSettings, cache: SettingsCache, resource: string)
    ensures var first := GetDocumentSettings(true, globalSettings, cache, resource);
      var second := GetDocumentSettings(true, globalSettings, first.cache, resource);
      second.handle == first.handle && second.cache == first.cache
  {
  }

  /** A lookup after the document was closed never returns a handle that
      was cached before: it issues a request with a number no cached entry
      carries. */
  lemma LookupAfterCloseIsFresh(globalSettings: ExampleSettings, cache: SettingsCache, uri: string)
    requires Valid(cache)
    ensures var l := GetDocumentSettings(true, globalSettings, OnDidClose(cache, uri), uri);
      && l.handle == Requested(cache.resolutions, uri, ConfigurationSection)
      && l.cache.resolutions == cache.resolutions + 1
      && forall u :: u in cache.entries ==> cache.entries[u] != l.handle
  {
  }

  /** Likewise after a configuration change with the capability: every
      resource is resolved afresh. */
  lemma LookupAfterChangeIsFresh(globalSettings: ExampleSettings, cache: SettingsCache,
                                 change: DidChangeConfigurationParams, uri: string)
    requires Valid(cache)
    ensures var c := OnDidChangeConfiguration(true, globalSettings, cache, change);
      var l := GetDocumentSettings(true, c.globalSettings, c.cache, uri);
      && l.handle == Requested(cache.resolutions, uri, ConfigurationSection)
      && forall u :: u in cache.entries ==> cache.entries[u] != l.handle
  {
  }
}

=== FILE: util.dfy ===
/** Small shared vocabulary: an optional value, and sequence prefixes. */
module Wrappers {

  /** A value that may be absent: JavaScript's `undefined`/`null` or a falsy field. */
  datatype Option<+T> = None | Some(value: T) {

    /** The carried value, or `default` when there is none (`x || default`). */
    function GetOr(default: T): T
    {
      match this
      case Some(v) => v
      case None => default
    }
  }
}

module Seqs {

  /** The first `k` elements of `s`, or all of `s` when it is shorter. */
  function Take<T>(s: seq<T>, k: nat): (t: seq<T>)
    ensures |t| == if k <= |s| then k else |s|
    ensures forall i :: 0 <= i < |t| ==> t[i] == s[i]
  {
    if k <= |s| then s[..k] else s
  }

  /** Taking a prefix of a concatenation: it either stays inside the first
      part, or takes all of it and a prefix of the second. */
  lemma TakeConcat<T>(a: seq<T>, b: seq<T>, k: nat)
    ensures k <= |a| ==> Take(a + b, k) == Take(a, k)
    ensures |a| <= k ==> Take(a + b, k) == a + Take(b, k - |a|)
  {
    if k <= |a| {
      assert (a + b)[..k] == a[..k];
    } else if k <= |a| + |b| {
      assert (a + b)[..k] == a + b[..k - |a|];
    }
  }
}

=== FILE: validation.dfy ===
/** The validation pass of `validateTextDocument` (server/src/server.ts),
    once the settings are in hand: for each pattern in list order, the loop
    `while ((m = pattern.exec(text)) && problems < max)` turns matches into
    Warning diagnostics. `exec` runs before the cap test, so once the cap is
    reached every remaining pattern is still `exec`uted once, and a pattern
    stopped by the cap keeps the `lastIndex` its last match left. */
module Validation {
  import opened Wrappers
  import opened Seqs
  import opened RegExps
  import opened Protocol

  const DiagnosticSource: string := "ex"
  const MessageInfix: string := "는 pattern "
  const MessageSuffix: string := "에 맞지 않습니다."
  const SpellingMatters: string := "Spelling matters"
  const ParticularlyForNames: string := "Particularly for names"

  /** A match together with the pattern that produced it. */
  datatype Hit = Hit(pattern: RegExp, m: Match)

  function Tag(pattern: RegExp, ms: seq<Match>): (hits: seq<Hit>)
    ensures |hits| == |ms|
    ensures forall i :: 0 <= i < |ms| ==> hits[i] == Hit(pattern, ms[i])
  {
    seq(|ms|, i requires 0 <= i < |ms| => Hit(pattern, ms[i]))
  }

  /** How many more diagnostics the cap allows once `problems` exist. */
  function Budget(problems: int, max: int): nat
  {
    if problems < max then max - problems else 0
  }

  /** Reference order: each pattern's first `n` successive `exec` matches,
      patterns in list order. */
  function Expected(engine: Engine, patterns: seq<RegExp>, text: string, n: nat): seq<Hit>
    decreases |patterns|
  {
    if patterns == [] then []
    else Tag(patterns[0], Successive(engine, patterns[0], text, n)) + Expected(engine, patterns[1..], text, n)
  }

  /** The first `k` expected hits do not depend on how far beyond `k` each
      pattern's match list was followed. */
  lemma {:induction false} ExpectedPrefix(engine: Engine, patterns: seq<RegExp>, text: string, k: nat, n: nat)
    requires k <= n
    ensures Take(Expected(engine, patterns, text, n), k) == Take(Expected(engine, patterns, text, k), k)
    decreases |patterns|
  {
    if patterns != [] {
      var r := patterns[0];
      var sn := Successive(engine, r, text, n);
      var sk := Successive(engine, r, text, k);
      var en := Expected(engine, patterns[1..], text, n);
      var ek := Expected(engine, patterns[1..], text, k);
      SuccessivePrefix(engine, r, text, k, n);
      TakeConcat(Tag(r, sn), en, k);
      TakeConcat(Tag(r, sk), ek, k);
      if |sn| >= k {
        assert Take(Tag(r, sn), k) == Tag(r, sk);
        assert Take(Tag(r, sk), k) == Tag(r, sk);
      } else {
        assert sk == sn;
        ExpectedPrefix(engine, patterns[1..], text, k - |sn|, n);
        ExpectedPrefix(engine, patterns[1..], text, k - |sn|, k);
      }
    }
  }

  /** Unfolding the reference order once: up to `budget` hits are the
      first pattern's successive matches followed by the rest's hits within
      what those left of the budget. */
  lemma {:induction false} ExpectedStep(engine: Engine, patterns: seq<RegExp>, text: string, budget: nat)
    requires patterns != []
    ensures var first := Successive(engine, patterns[0], text, budget);
      var k := budget - |first|;
      Take(Expected(engine, patterns, text, budget), budget)
        == Tag(patterns[0], first) + Take(Expected(engine, patterns[1..], text, k), k)
  {
    var first := Successive(engine, patterns[0], text, budget);
    var k := budget - |first|;
    ExpectedPrefix(engine, patterns[1..], text, k, budget);
    TakeConcat(Tag(patterns[0], first), Expected(engine, patterns[1..], text, budget), budget);
  }

  /** The loop over one pattern: the matches it reported, the pattern's
      state afterwards, the running count, and the match the cap dropped
      (the last `exec` succeeded but `problems < max` failed), if any. */
  datatype PatternScan = PatternScan(hits: seq<Match>, after: RegExp, problems: int, cut: Option<Match>)

  /** `lastIndex` a global or sticky pattern is left with: the end of the
      dropped match, or 0 when its last `exec` failed. */
  function CutIndex(cut: Option<Match>): nat
  {
    match cut
    case Some(m) => m.End()
    case None => 0
  }

  /** How one pattern's loop ends: how many matches it reported, the
      pattern's state afterwards, and the match its last `exec` returned
      (the one the cap dropped, or None). */
  datatype PatternEnd = PatternEnd(count: nat, after: RegExp, cut: Option<Match>)

  /** Reference for the loop over one pattern with `budget` diagnostics
      left: it reports the successive matches up to the budget, and the
      pattern is left in the state, and with the match, of one further
      `exec`. */
  function ExecOutcome(engine: Engine, r: RegExp, text: string, budget: nat): (o: PatternEnd)
    ensures o.count <= budget
  {
    var count := |Successive(engine, r, text, budget)|;
    PatternEnd(count, StateAfter(engine, r, text, count + 1), Exec(engine, StateAfter(engine, r, text, count), text).m)
  }

  /** Reference for the whole pattern list: each pattern ends as
      `ExecOutcome` says, with the budget the patterns before it left. */
  function ExpectedEnds(engine: Engine, patterns: seq<RegExp>, text: string, budget: nat): (ends: seq<PatternEnd>)
    ensures |ends| == |patterns|
    decreases |patterns|
  {
    if patterns == [] then []
    else
      var o := ExecOutcome(engine, patterns[0], text, budget);
      [o] + ExpectedEnds(engine, patterns[1..], text, budget - o.count)
  }

  /** How a pattern is left by its loop: same source and flags; a pattern
      without the global or sticky flag untouched; a global or sticky one at
      the end of the dropped match, or at 0 when its last `exec` failed. */
  predicate LeftBy(r: RegExp, after: RegExp, cut: Option<Match>)
  {
    && SamePattern(after, r)
    && (!UsesLastIndex(r) ==> after == r)
    && (UsesLastIndex(r) ==> after.lastIndex == CutIndex(cut))
  }

  /** The inner `while` for one pattern. It reports the first
      `Budget(problems, max)` successive matches, calls `exec` exactly once
      more than it reports, and drops a match only when the cap is reached. */
  function ScanPattern(engine: Engine, r: RegExp, text: string, problems: int, max: int): (s: PatternScan)
    ensures s.problems == problems + |s.hits|
    ensures s.hits == Successive(engine, r, text, Budget(problems, max))
    ensures s.after == StateAfter(engine, r, text, |s.hits| + 1)
    ensures s.cut == Exec(engine, StateAfter(engine, r, text, |s.hits|), text).m
    ensures s.cut.Some? ==> s.problems >= max
    ensures |s.hits| < Budget(problems, max) ==> s.cut.None?
    ensures LeftBy(r, s.after, s.cut)
    decreases Budget(problems, max)
  {
    var e := Exec(engine, r, text);
    if e.m.Some? && problems < max then
      var rest := ScanPattern(engine, e.after, text, problems + 1, max);
      PatternScan([e.m.value] + rest.hits, rest.after, rest.problems, rest.cut)
    else
      PatternScan([], e.after, problems, e.m)
  }

  /** The inner loop ends as the reference `ExecOutcome` says. */
  lemma ScanPatternEndsAsExpected(engine: Engine, r: RegExp, text: string, problems: int, max: int)
    ensures var s := ScanPattern(engine, r, text, problems, max);
      PatternEnd(|s.hits|, s.after, s.cut) == ExecOutcome(engine, r, text, Budget(problems, max))
  {
  }

  /** The loop over the whole pattern list: the hits, and how each pattern
      ended. */
  datatype PassScan = PassScan(hits: seq<Hit>, ends: seq<PatternEnd>, problems: int)

  /** The outer `for` over the pattern list: each pattern's loop runs with
      the count the patterns before it left. What it reports and how each
      pattern ends are stated by the lemmas below against the references
      `Expected` and `ExpectedEnds`. */
  function ScanPatterns(engine: Engine, patterns: seq<RegExp>, text: string, problems: int, max: int): (s: PassScan)
    ensures s.problems == problems + |s.hits|
    ensures |s.hits| <= Budget(problems, max)
    ensures |s.ends| == |patterns|
    decreases |patterns|
  {
    if patterns == [] then PassScan([], [], problems)
    else
      var first := ScanPattern(engine, patterns[0], text, problems, max);
      var rest := ScanPatterns(engine, patterns[1..], text, first.problems, max);
      PassScan(Tag(patterns[0], first.hits) + rest.hits,
               [PatternEnd(|first.hits|, first.after, first.cut)] + rest.ends,
               rest.problems)
  }

  /** The outer loop reports exactly the first `Budget(problems, max)` hits
      of the reference order. */
  lemma {:induction false} PassHitsFollowReference(engine: Engine, patterns: seq<RegExp>, text: string,
                                                   problems: int, max: int)
    ensures ScanPatterns(engine, patterns, text, problems, max).hits
         == Take(Expected(engine, patterns, text, Budget(problems, max)), Budget(problems, max))
    decreases |patterns|
  {
    if patterns != [] {
      var first := ScanPattern(engine, patterns[0], text, problems, max);
      PassHitsFollowReference(engine, patterns[1..], text, first.problems, max);
      ExpectedStep(engine, patterns, text, Budget(problems, max));
      assert Budget(first.problems, max) == Budget(problems, max) - |first.hits|;
    }
  }

  /** Each pattern ends as the reference `ExpectedEnds` says: it reports
      what the budget left by the patterns before it allows, is `exec`uted
      once more, and keeps the state and the match of that last call. */
  lemma {:induction false} PassEndsFollowReference(engine: Engine, patterns: seq<RegExp>, text: string,
                                                   problems: int, max: int)
    ensures ScanPatterns(engine, patterns, text, problems, max).ends
         == ExpectedEnds(engine, patterns, text, Budget(problems, max))
    decreases |patterns|
  {
    if patterns != [] {
      var first := ScanPattern(engine, patterns[0], text, problems, max);
      PassEndsFollowReference(engine, patterns[1..], text, first.problems, max);
      ScanPatternEndsAsExpected(engine, patterns[0], text, problems, max);
      assert Budget(first.problems, max) == Budget(problems, max) - |first.hits|;
    }
  }

  /** Every pattern keeps its form; a global or sticky one ends at the end
      of its dropped match, or at 0. */
  lemma {:induction false} PassLeavesPatterns(engine: Engine, patterns: seq<RegExp>, text: string,
                                              problems: int, max: int, i: nat)
    requires i < |patterns|
    ensures var s := ScanPatterns(engine, patterns, text, problems, max);
      LeftBy(patterns[i], s.ends[i].after, s.ends[i].cut)
    decreases |patterns|
  {
    var first := ScanPattern(engine, patterns[0], text, problems, max);
    if i > 0 {
      PassLeavesPatterns(engine, patterns[1..], text, first.problems, max, i - 1);
    }
  }

  /** A pattern's match is dropped only when the cap has been reached. */
  lemma {:induction false} DropMeansCapReached(engine: Engine, patterns: seq<RegExp>, text: string,
                                               problems: int, max: int, i: nat)
    requires i < |patterns|
    ensures var s := ScanPatterns(engine, patterns, text, problems, max);
      s.ends[i].cut.Some? ==> |s.hits| == Budget(problems, max)
    decreases |patterns|
  {
    var first := ScanPattern(engine, patterns[0], text, problems, max);
    if i > 0 {
      DropMeansCapReached(engine, patterns[1..], text, first.problems, max, i - 1);
    }
  }

  /** Once the cap is reached, every remaining pattern is still `exec`uted
      once: it reports nothing and keeps the state and the match of that
      call. */
  lemma {:induction false} ExhaustedBudgetStillExecs(engine: Engine, patterns: seq<RegExp>, text: string)
    ensures var ends := ExpectedEnds(engine, patterns, text, 0);
      forall i :: 0 <= i < |patterns| ==>
        ends[i] == PatternEnd(0, Exec(engine, patterns[i], text).after, Exec(engine, patterns[i], text).m)
    decreases |patterns|
  {
    if patterns != [] {
      ExhaustedBudgetStillExecs(engine, patterns[1..], text);
      var ends := ExpectedEnds(engine, patterns, text, 0);
      forall i | 0 <= i < |patterns|
        ensures ends[i] == PatternEnd(0, Exec(engine, patterns[i], text).after, Exec(engine, patterns[i], text).m)
      {
        if i > 0 {
          assert patterns[i] == patterns[1..][i - 1];
        }
      }
    }
  }

  /** The message names the matched text and then the pattern:
      `${m[0]}는 pattern ${pattern}에 맞지 않습니다.` */
  predicate NamesMatchAndPattern(message: string, hit: Hit)
  {
    var m0 := hit.m.matched;
    var p := ToString(hit.pattern);
    && |m0| + |MessageInfix| + |p| <= |message|
    && message[..|m0|] == m0
    && message[|m0| + |MessageInfix|..|m0| + |MessageInfix| + |p|] == p
  }

  /** The two fixed related-information entries, both at the diagnostic's
      own range in the same document. */
  function RelatedInformation(uri: string, range: Range): seq<DiagnosticRelatedInformation>
  {
    [ DiagnosticRelatedInformation(Location(uri, range), SpellingMatters),
      DiagnosticRelatedInformation(Location(uri, range), ParticularlyForNames) ]
  }

  /** One match turned into a diagnostic: a Warning from source "ex",
      spanning `positionAt(m.index)` to `positionAt(m.index + m[0].length)`,
      whose message names the match and the pattern, with related
      information exactly when the client supports it. */
  function MakeDiagnostic(uri: string, hit: Hit, positionAt: PositionAt, related: bool): (d: Diagnostic)
    ensures d.severity == Warning && d.source == DiagnosticSource
    ensures d.range == Range(positionAt(hit.m.index), positionAt(hit.m.End()))
    ensures NamesMatchAndPattern(d.message, hit)
    ensures d.relatedInformation.Some? <==> related
    ensures related ==> d.relatedInformation.value == RelatedInformation(uri, d.range)
  {
    var range := Range(positionAt(hit.m.index), positionAt(hit.m.End()));
    var message := hit.m.matched + MessageInfix + ToString(hit.pattern) + MessageSuffix;
    assert message[..|hit.m.matched|] == hit.m.matched;
    Diagnostic(Warning, range, message, DiagnosticSource,
      if related then Some(RelatedInformation(uri, range)) else None)
  }

  function Diagnostics(uri: string, hits: seq<Hit>, positionAt: PositionAt, related: bool): (ds: seq<Diagnostic>)
    ensures |ds| == |hits|
    ensures forall i :: 0 <= i < |hits| ==> ds[i] == MakeDiagnostic(uri, hits[i], positionAt, related)
  {
    seq(|hits|, i requires 0 <= i < |hits| => MakeDiagnostic(uri, hits[i], positionAt, related))
  }

  /** Outcome of one pass: the diagnostics to publish, the pattern list
      with its new `lastIndex` values, and how each pattern's loop ended. */
  datatype PassResult = PassResult(diagnostics: seq<Diagnostic>, patterns: seq<RegExp>, ends: seq<PatternEnd>)

  /** The synchronous part of `validateTextDocument`: at most
      `maxNumberOfProblems` diagnostics, exactly the first matches of the
      reference order, each converted by `MakeDiagnostic`. Each pattern ends
      as `ExpectedEnds` says, and the new pattern list holds those states. */
  function ValidationPass(engine: Engine, patterns: seq<RegExp>, uri: string, text: string,
                          positionAt: PositionAt, maxNumberOfProblems: int, related: bool): (r: PassResult)
    ensures |r.diagnostics| <= Budget(0, maxNumberOfProblems)
    ensures var n := Budget(0, maxNumberOfProblems);
      r.diagnostics == Diagnostics(uri, Take(Expected(engine, patterns, text, n), n), positionAt, related)
    ensures r.ends == ExpectedEnds(engine, patterns, text, Budget(0, maxNumberOfProblems))
    ensures |r.patterns| == |patterns|
    ensures forall i :: 0 <= i < |patterns| ==> r.patterns[i] == r.ends[i].after
    ensures forall i :: 0 <= i < |patterns| ==> LeftBy(patterns[i], r.patterns[i], r.ends[i].cut)
    ensures forall i :: 0 <= i < |patterns| && r.ends[i].cut.Some? ==>
      |r.diagnostics| == Budget(0, maxNumberOfProblems)
  {
    var scan := ScanPatterns(engine, patterns, text, 0, maxNumberOfProblems);
    var after := seq(|scan.ends|, i requires 0 <= i < |scan.ends| => scan.ends[i].after);
    PassHitsFollowReference(engine, patterns, text, 0, maxNumberOfProblems);
    PassEndsFollowReference(engine, patterns, text, 0, maxNumberOfProblems);
    assert forall i :: 0 <= i < |patterns| ==> LeftBy(patterns[i], scan.ends[i].after, scan.ends[i].cut) by {
      forall i | 0 <= i < |patterns| {
        PassLeavesPatterns(engine, patterns, text, 0, maxNumberOfProblems, i);
      }
    }
    assert forall i :: 0 <= i < |patterns| && scan.ends[i].cut.Some? ==>
             |scan.hits| == Budget(0, maxNumberOfProblems) by {
      forall i | 0 <= i < |patterns| {
        DropMeansCapReached(engine, patterns, text, 0, maxNumberOfProblems, i);
      }
    }
    PassResult(Diagnostics(uri, scan.hits, positionAt, related), after, scan.ends)
  }

  /** Outcome of a pass whose awaited settings are `null`: the pattern list
      afterwards, and whether the pass threw. */
  datatype NullPass = NullPass(patterns: seq<RegExp>, threw: bool)

  /** The position of the first pattern whose `exec` from its current
      state matches, or the length of the list when none does. */
  function FirstMatching(engine: Engine, patterns: seq<RegExp>, text: string): (k: nat)
    ensures k <= |patterns|
    ensures forall j :: 0 <= j < k ==> Exec(engine, patterns[j], text).m.None?
    ensures k < |patterns| ==> Exec(engine, patterns[k], text).m.Some?
    decreases |patterns|
  {
    if patterns == [] then 0
    else if Exec(engine, patterns[0], text).m.Some? then 0
    else
      var k := FirstMatching(engine, patterns[1..], text);
      assert forall j :: 1 <= j < k + 1 ==> patterns[j] == patterns[1..][j - 1];
      k + 1
  }

  /** The pass when the settings are `null`. The loop condition reads
      `settings.maxNumberOfProblems` only after an `exec` has succeeded, and
      that read throws. So the patterns are `exec`uted once each, in list
      order, until one matches: that pattern keeps the state its `exec`
      left, the ones after it are never touched, and the pass throws before
      publishing. When no pattern matches, the loop ends normally with no
      diagnostics. */
  function NullSettingsPass(engine: Engine, patterns: seq<RegExp>, text: string): (n: NullPass)
    ensures |n.patterns| == |patterns|
    decreases |patterns|
  {
    if patterns == [] then NullPass([], false)
    else
      var e := Exec(engine, patterns[0], text);
      if e.m.Some? then NullPass([e.after] + patterns[1..], true)
      else
        var rest := NullSettingsPass(engine, patterns[1..], text);
        NullPass([e.after] + rest.patterns, rest.threw)
  }

  /** The `null` pass throws exactly when some pattern matches. */
  lemma {:induction false} NullPassThrowsOnMatch(engine: Engine, patterns: seq<RegExp>, text: string)
    ensures NullSettingsPass(engine, patterns, text).threw <==> FirstMatching(engine, patterns, text) < |patterns|
    decreases |patterns|
  {
    if patterns != [] && Exec(engine, patterns[0], text).m.None? {
      NullPassThrowsOnMatch(engine, patterns[1..], text);
    }
  }

  /** The patterns up to and including the first that matches are each
      `exec`uted once; the ones after it are untouched. */
  lemma {:induction false} NullPassExecsUpToMatch(engine: Engine, patterns: seq<RegExp>, text: string, i: nat)
    requires i < |patterns|
    ensures var n := NullSettingsPass(engine, patterns, text);
      var k := FirstMatching(engine, patterns, text);
      && (i <= k ==> n.patterns[i] == Exec(engine, patterns[i], text).after)
      && (k < i ==> n.patterns[i] == patterns[i])
    decreases |patterns|
  {
    if i > 0 {
      assert patterns[i] == patterns[1..][i - 1];
      if Exec(engine, patterns[0], text).m.None? {
        NullPassExecsUpToMatch(engine, patterns[1..], text, i - 1);
      }
    }
  }

  /** The `null` pass changes only `lastIndex` values. */
  lemma NullPassKeepsForms(engine: Engine, patterns: seq<RegExp>, text: string)
    ensures var n := NullSettingsPass(engine, patterns, text);
      forall i :: 0 <= i < |patterns| ==> SamePattern(n.patterns[i], patterns[i])
  {
    forall i | 0 <= i < |patterns| {
      NullPassExecsUpToMatch(engine, patterns, text, i);
    }
  }

  /** A `null` pass that does not throw leaves the patterns exactly as a
      pass with no budget does, and publishes what that pass publishes:
      nothing. */
  lemma QuietNullPassIsEmptyPass(engine: Engine, patterns: seq<RegExp>, uri: string, text: string,
                                   positionAt: PositionAt, related: bool)
    requires !NullSettingsPass(engine, patterns, text).threw
    ensures var r := ValidationPass(engine, patterns, uri, text, positionAt, 0, related);
      && r.diagnostics == []
      && NullSettingsPass(engine, patterns, text).patterns == r.patterns
  {
    var n := NullSettingsPass(engine, patterns, text);
    var r := ValidationPass(engine, patterns, uri, text, positionAt, 0, related);
    ExhaustedBudgetStillExecs(engine, patterns, text);
    NullPassThrowsOnMatch(engine, patterns, text);
    assert |n.patterns| == |r.patterns|;
    forall i | 0 <= i < |patterns|
      ensures n.patterns[i] == r.patterns[i]
    {
      NullPassExecsUpToMatch(engine, patterns, text, i);
    }
  }

  /** A pass that ends below the cap ended because every pattern ran out of
      matches: each global or sticky pattern is back at `lastIndex` 0. */
  lemma UncappedPassResetsLastIndex(engine: Engine, patterns: seq<RegExp>, uri: string, text: string,
                                    positionAt: PositionAt, maxNumberOfProblems: int, related: bool)
    ensures var r := ValidationPass(engine, patterns, uri, text, positionAt, maxNumberOfProblems, related);
      |r.diagnostics| < Budget(0, maxNumberOfProblems) ==>
        forall i :: 0 <= i < |patterns| && UsesLastIndex(patterns[i]) ==> r.patterns[i].lastIndex == 0
  {
    var r := ValidationPass(engine, patterns, uri, text, positionAt, maxNumberOfProblems, related);
    if |r.diagnostics| < Budget(0, maxNumberOfProblems) {
      forall i | 0 <= i < |patterns| && UsesLastIndex(patterns[i])
        ensures r.patterns[i].lastIndex == 0
      {
        assert r.ends[i].cut.None?;
      }
    }
  }

  /** A global or sticky pattern whose match the cap dropped is left
      mid-text: past that match, so not at 0 when the match is non-empty,
      and within the text when the engine is sound. */
  lemma CappedPatternKeepsLastIndex(engine: Engine, patterns: seq<RegExp>, uri: string, text: string,
                                    positionAt: PositionAt, maxNumberOfProblems: int, related: bool, i: nat)
    requires Sound(engine)
    requires i < |patterns| && UsesLastIndex(patterns[i])
    requires ValidationPass(engine, patterns, uri, text, positionAt, maxNumberOfProblems, related).ends[i].cut.Some?
    ensures var r := ValidationPass(engine, patterns, uri, text, positionAt, maxNumberOfProblems, related);
      var m := r.ends[i].cut.value;
      && r.patterns[i].lastIndex == m.End()
      && r.patterns[i].lastIndex <= |text|
      && (|m.matched| > 0 ==> r.patterns[i].lastIndex > 0)
      && |r.diagnostics| == Budget(0, maxNumberOfProblems)
  {
    var r := ValidationPass(engine, patterns, uri, text, positionAt, maxNumberOfProblems, related);
    DroppedIsGenuine(engine, patterns, text, Budget(0, maxNumberOfProblems), i);
  }

  /** With a sound engine every dropped match is a genuine occurrence. */
  lemma {:induction false} DroppedIsGenuine(engine: Engine, patterns: seq<RegExp>, text: string, budget: nat, i: nat)
    requires Sound(engine)
    requires i < |patterns|
    ensures var ends := ExpectedEnds(engine, patterns, text, budget);
      ends[i].cut.Some? ==> Within(ends[i].cut.value, text, 0)
    decreases |patterns|
  {
    var o := ExecOutcome(engine, patterns[0], text, budget);
    if i > 0 {
      DroppedIsGenuine(engine, patterns[1..], text, budget - o.count, i - 1);
    }
  }

  /** Every published diagnostic has the fixed shape: Warning, source "ex",
      the two related-information entries exactly when the client supports
      them, and (for a monotone `positionAt`) a range whose start is not
      after its end. */
  lemma PassDiagnosticsShape(engine: Engine, patterns: seq<RegExp>, uri: string, text: string,
                             positionAt: PositionAt, maxNumberOfProblems: int, related: bool)
    ensures var r := ValidationPass(engine, patterns, uri, text, positionAt, maxNumberOfProblems, related);
      forall d :: d in r.diagnostics ==>
        && d.severity == Warning
        && d.source == DiagnosticSource
        && (d.relatedInformation.Some? <==> related)
        && (related ==> d.relatedInformation.value == RelatedInformation(uri, d.range))
        && (Monotone(positionAt) ==> PositionLe(d.range.start, d.range.end))
  {
    var r := ValidationPass(engine, patterns, uri, text, positionAt, maxNumberOfProblems, related);
    forall d | d in r.diagnostics
      ensures Monotone(positionAt) ==> PositionLe(d.range.start, d.range.end)
    {
      var i :| 0 <= i < |r.diagnostics| && r.diagnostics[i] == d;
    }
  }
}
